=== FILE: README.md ===
# Diamond compile-test harness, modelled in Dafny

Diamond's `compiletest` module lets an annotation-processor author write a
processor class, mark it with `@ProcessorTest`, and get a JUnit dynamic test
for it. `CompileTestRunner.runProcessorTestsIn(sourceRoot, classpath)` does
the following:

- walks the source tree and compiles every `.java` file with
  `CompileTestUtils.compile`;
- loads each result through a fresh `AnnotationProcessorClassLoader`;
- keeps the classes that implement `javax.annotation.processing.Processor` and
  carry `@ProcessorTest`;
- for each of those, builds a test. The test compiles a synthesized stub with
  the processor, compiles the expected source without a processor, and
  compares the two `Example` class files with debug information stripped.

The project has five modules:

- `Common` (common.dfy): bytes, paths, `Option`, `Result`, and the
  file-separator character.
- `Text` (text.dfy): the `java.lang.String` operations the harness relies on:
  - both `replace` overloads;
  - `String.join` / `StringJoiner`;
  - `StringBuilder` appends.

  A `Split` function is the partner that proves joins and appends can be read
  back as lines.
- `ClassLoading` (class_loader.dfy): the loader.
  - A pure specification, `Load`, gives the lookup order: the cache, then the
    loader's own table (defining the class once), then the parent.
  - The class `AnnotationProcessorClassLoader` has the mutable
    `findLoadedClass` cache and a read-only table. Its `LoadClass` is proved
    equal to `Load`.
- `CompileUtils` (compile_utils.dfy): the compiler wrapper.
  - javac is an oracle from the request it receives to what it leaves in the
    output directory.
  - Modelled here: the classpath set, the `--add-exports` options, the input
    and primary-output paths, the success test, and the artifact keys.
  - It includes the round trip from a class name to its class-file path and
    back to the key. The runner relies on that round trip when it reads
    `.get("Example")`.
- `Runner` (runner.dfy): discovery and test bodies.
  - Reflection is a `ClassGraph` map (superclass, declared interfaces and
    annotations, by class name).
  - The lazily consumed stream is the list of tests yielded before the first
    exception (`Discovery`).

The file separator is a parameter restricted to `/` or `\`. Several things in
the source have an order the model leaves open: `HashSet` iteration,
`Files.walk` order and the output walk. Each is a nondeterministic choice,
and every contract holds whatever was chosen.

A class counts as a processor only through the interfaces declared directly
on it and on each of its superclasses. Interfaces that those interfaces extend
are not followed, so a class whose only route to `Processor` is a
superinterface is not recognised (`Runner.SuperinterfacesNotFollowed`).

The one-argument `runProcessorTestsIn(sourceRoot)` passes a null classpath.
It is `Runner.RunProcessorTestsIn` with `classpath := None`.

## Model

| member | source | states |
|---|---|---|
| Text.ReplaceAll | compiletest/src/main/java/org/transparent/diamond/compiletest/CompileTestRunner.java:69 | `String.replace(CharSequence, CharSequence)`: replacing a target by itself changes nothing; every character of the result comes from the input or the replacement; a one-character target that the replacement does not contain is gone afterwards |
| Text.ReplaceChar | compiletest/src/main/java/org/transparent/diamond/compiletest/CompileTestUtils.java:149 | `String.replace(char, char)`: the result has the same length, and each character is replaced exactly when it equals the old character |
| Text.ReplaceSingleChar | compiletest/src/main/java/org/transparent/diamond/compiletest/CompileTestUtils.java:136 | the `CharSequence` overload with a one-character target and replacement equals the `char` overload |
| Text.ReplaceAllSkipsPrefix | compiletest/src/main/java/org/transparent/diamond/compiletest/CompileTestRunner.java:69 | a prefix that cannot start an occurrence of the target passes through `replace` unchanged |
| Text.ReplaceCharRoundTrip | compiletest/src/main/java/org/transparent/diamond/compiletest/CompileTestUtils.java:149 | replacing `a` by `b` and then `b` by `a` is the identity when `b` did not occur |
| Text.ReplaceCharRemoves | compiletest/src/main/java/org/transparent/diamond/compiletest/CompileTestUtils.java:136 | after replacing `a` by a different character, no `a` remains |
| Text.JoinAppend | compiletest/src/main/java/org/transparent/diamond/compiletest/CompileTestRunner.java:143-146 | `StringJoiner.add` on a non-empty joiner appends the delimiter and then the element |
| Text.SplitJoin | compiletest/src/main/java/org/transparent/diamond/compiletest/CompileTestRunner.java:140-147 | splitting a join on its one-character delimiter returns the parts, when no part contains the delimiter |
| Text.SplitConcatLines | compiletest/src/main/java/org/transparent/diamond/compiletest/CompileTestRunner.java:104-132 | text appended as newline-terminated lines, the last one unterminated, splits back into exactly those lines |
| Text.Join | compiletest/src/main/java/org/transparent/diamond/compiletest/CompileTestRunner.java:140 | `String.join`: no parts give the empty string; otherwise the result starts with the first part and ends with the last (its partner is `Text.SplitJoin`) |
| Text.Concat | compiletest/src/main/java/org/transparent/diamond/compiletest/CompileTestRunner.java:104-132 | what a `StringBuilder` holds after the appends: empty for no pieces, otherwise it starts with the first piece and ends with the last (its partner is `Text.SplitConcatLines`) |
| ClassLoading.Load | compiletest/src/main/java/org/transparent/diamond/compiletest/AnnotationProcessorClassLoader.java:26-39 | the cache gains the looked-up name exactly when it is in the table; a cached or table name is answered with the class now cached under it; any other name leaves the state unchanged and is found iff the parent has it |
| ClassLoading.Delegate | compiletest/src/main/java/org/transparent/diamond/compiletest/AnnotationProcessorClassLoader.java:33 | `super.loadClass` for a name this loader neither cached nor owns: found exactly when the parent has it, then with the parent's bytes, that name, and the parent as definer; otherwise ClassNotFound, which carries the name only in the model (the Java exception has no message) |
| ClassLoading.LoadAll | compiletest/src/main/java/org/transparent/diamond/compiletest/AnnotationProcessorClassLoader.java:26-39 | a run of `loadClass` calls on one loader threads the state from call to call and returns one answer per name (the partner of `LoadsOfSameNameAgree` and `LoadAllDefinesAtMostOnce`) |
| ClassLoading.TableNamesNeverDelegated | compiletest/src/main/java/org/transparent/diamond/compiletest/AnnotationProcessorClassLoader.java:28-31 | a name in the table is answered by this loader from the table's bytes and never by the parent |
| ClassLoading.LoadChangesStateIff | compiletest/src/main/java/org/transparent/diamond/compiletest/AnnotationProcessorClassLoader.java:28-37 | a lookup changes the loader's state exactly when the name is neither cached nor delegated, i.e. is in the table and not yet defined |
| ClassLoading.LoadPreservesConsistent | compiletest/src/main/java/org/transparent/diamond/compiletest/AnnotationProcessorClassLoader.java:28-45 | every lookup keeps the cache consistent with the table: each cached class came from the table's bytes, and no name appears twice in the definition order |
| ClassLoading.SettledStaysSettled | compiletest/src/main/java/org/transparent/diamond/compiletest/AnnotationProcessorClassLoader.java:28-37 | once a name is cached or known to be delegated, every later lookup of it returns the same answer |
| ClassLoading.LoadsOfSameNameAgree | compiletest/src/main/java/org/transparent/diamond/compiletest/AnnotationProcessorClassLoader.java:28-37 | in any run of `loadClass` calls on one loader, two lookups of the same name return the same class |
| ClassLoading.LoadAllDefinesAtMostOnce | compiletest/src/main/java/org/transparent/diamond/compiletest/AnnotationProcessorClassLoader.java:26-39 | any run of lookups defines each name at most once per loader |
| ClassLoading.AnnotationProcessorClassLoader.constructor | compiletest/src/main/java/org/transparent/diamond/compiletest/AnnotationProcessorClassLoader.java:16-23 | the table is the given map, held in a constant field; nothing is cached or defined yet |
| ClassLoading.AnnotationProcessorClassLoader.FindLoadedClass | compiletest/src/main/java/org/transparent/diamond/compiletest/AnnotationProcessorClassLoader.java:28 | returns a class exactly when the name is cached, and then the cached class itself |
| ClassLoading.AnnotationProcessorClassLoader.DefineClass | compiletest/src/main/java/org/transparent/diamond/compiletest/AnnotationProcessorClassLoader.java:45 | the error cases: a range outside the array, or a name already defined (LinkageError), each leaving the state unchanged. Otherwise the class is defined from exactly the bytes `b[off..off+len]`, cached, and appended to the definition order |
| ClassLoading.AnnotationProcessorClassLoader.FindClass | compiletest/src/main/java/org/transparent/diamond/compiletest/AnnotationProcessorClassLoader.java:42-49 | a name outside the table throws ClassNotFoundException. A table name is defined from its whole byte array (offset 0, full length) |
| ClassLoading.AnnotationProcessorClassLoader.LoadClass | compiletest/src/main/java/org/transparent/diamond/compiletest/AnnotationProcessorClassLoader.java:26-39 | the new state and result are exactly `Load` on the old state (cache, then table, then parent), and the loader stays consistent |
| CompileUtils.IsJava9OrAbove | compiletest/src/main/java/org/transparent/diamond/compiletest/CompileTestUtils.java:52-54 | true exactly when the version string does not begin with the two characters `1.` |
| CompileUtils.ExportValue | compiletest/src/main/java/org/transparent/diamond/compiletest/CompileTestUtils.java:161 | each export's option value is `jdk.compiler/`, the export itself, then `=ALL-UNNAMED` |
| CompileUtils.ClassPathBase | compiletest/src/main/java/org/transparent/diamond/compiletest/CompileTestUtils.java:136 | with a separator other than `.`, the class's relative path has no dot left |
| CompileUtils.SourceFile | compiletest/src/main/java/org/transparent/diamond/compiletest/CompileTestUtils.java:149 | the source-root input is a `.java` file starting with `sourceRoot` plus separator, as long as root, separator, name and `.java` together, with no dot in its relative part |
| CompileUtils.InlineSourceFile | compiletest/src/main/java/org/transparent/diamond/compiletest/CompileTestUtils.java:151 | the inline input is a `.java` file below the output directory, with no dot in its relative part |
| CompileUtils.PrimaryArtifact | compiletest/src/main/java/org/transparent/diamond/compiletest/CompileTestUtils.java:156 | the primary output is a dot-free relative path followed by `.class` |
| CompileUtils.ArtifactKey | compiletest/src/main/java/org/transparent/diamond/compiletest/CompileTestUtils.java:186-190 | an output file's key never contains the separator |
| CompileUtils.Succeeded | compiletest/src/main/java/org/transparent/diamond/compiletest/CompileTestUtils.java:180 | success means javac completed and reported true and the primary class file exists; then some output file's key is the class name itself |
| CompileUtils.InputPathsAgree | compiletest/src/main/java/org/transparent/diamond/compiletest/CompileTestUtils.java:136-151 | the source-root input and the inline input sit at the same relative path, under sourceRoot and under the output directory respectively |
| CompileUtils.ArtifactKeyRoundTrip | compiletest/src/main/java/org/transparent/diamond/compiletest/CompileTestUtils.java:186-190 | for a name without the separator, the key derived from the primary class file's path is the name itself |
| CompileUtils.SucceededHasClassKey | compiletest/src/main/java/org/transparent/diamond/compiletest/CompileTestUtils.java:180-194 | a successful compile's collected map always holds the class's own name as a key |
| CompileUtils.CollectedUniqueKey | compiletest/src/main/java/org/transparent/diamond/compiletest/CompileTestUtils.java:181-193 | an output file whose key no other file shares is found under that key with its own bytes |
| CompileUtils.AddExportsOptions | compiletest/src/main/java/org/transparent/diamond/compiletest/CompileTestUtils.java:157-163 | on Java 9 and later: for each export in order, the pair `--add-exports`, `jdk.compiler/<e>=ALL-UNNAMED` (twice as many options as exports). Otherwise no options |
| CompileUtils.ListOf | compiletest/src/main/java/org/transparent/diamond/compiletest/CompileTestUtils.java:142 | copying the classpath set into a list gives each element exactly once, and nothing else |
| CompileUtils.CollectArtifacts | compiletest/src/main/java/org/transparent/diamond/compiletest/CompileTestUtils.java:181-193 | the map's keys are exactly the keys of the output files, and each value is the bytes of a file with that key, whatever the walk order |
| CompileUtils.ClasspathEntries | compiletest/src/main/java/org/transparent/diamond/compiletest/CompileTestUtils.java:42-49 | the classpath set holds the caller's entries (none for null), this library's jar, and the compiler's jar exactly on versions starting with `1.` |
| CompileUtils.IsRequest | compiletest/src/main/java/org/transparent/diamond/compiletest/CompileTestUtils.java:137-177 | the request javac is given: the classpath set in some order, then sourceRoot, then the output directory; the output directory as class output; the export options on Java 9 and later, none before; the input under sourceRoot, or the supplied source written below the output directory; a processor, when given, run on exactly this class |
| CompileUtils.CompileTestUtils.constructor | compiletest/src/main/java/org/transparent/diamond/compiletest/CompileTestUtils.java:39-50 | the classpath set is `ClasspathEntries` of the arguments: it holds exactly the caller's entries (none for null), this library's jar, and the compiler's jar iff the version starts with `1.` |
| CompileUtils.CompileTestUtils.RequestFor | compiletest/src/main/java/org/transparent/diamond/compiletest/CompileTestUtils.java:142-177 | a request of this wrapper has its classpath set in some order, then `sourceRoot`, then the output directory, which is also the class output; so both are on the classpath, and a processor list is passed exactly when the class list is |
| CompileUtils.CompileTestUtils.CompileWithAnnotationProcessor | compiletest/src/main/java/org/transparent/diamond/compiletest/CompileTestUtils.java:133-209 | what javac is given (below). The result is present iff javac succeeded and the primary class file exists, and it then holds the collected artifacts, including the class's own name as a key |
| CompileUtils.CompileTestUtils.CompileWithProcessorAsWritten | compiletest/src/main/java/org/transparent/diamond/compiletest/CompileTestUtils.java:116-118 | as written: the request is that of a compile with no inline source and no processor; a success holds the class's name as a key |
| CompileUtils.AsWrittenDropsProcessor | compiletest/src/main/java/org/transparent/diamond/compiletest/CompileTestUtils.java:116-118 | the as-written overload's request is never the one that runs the processor it was given |
| CompileUtils.CompileTestUtils.CompileWithProcessor | compiletest/src/main/java/org/transparent/diamond/compiletest/CompileTestUtils.java:104-118 | as documented: the request is that of a compile with no inline source and the given processor |
| CompileUtils.CompileTestUtils.Compile | compiletest/src/main/java/org/transparent/diamond/compiletest/CompileTestUtils.java:89-102 | a compile of the class's own source under sourceRoot, with no processor; a success holds the class's name as a key |
| Runner.AcyclicChainEnds | compiletest/src/main/java/org/transparent/diamond/compiletest/CompileTestRunner.java:76-78 | on a graph without superclass cycles, the superclass walk from any class reaches null |
| Runner.ChainFollowsSuperclasses | compiletest/src/main/java/org/transparent/diamond/compiletest/CompileTestRunner.java:78 | each element of a chain that ends is followed by its superclass |
| Runner.SuperclassesAreTheChain | compiletest/src/main/java/org/transparent/diamond/compiletest/CompileTestRunner.java:74-78 | the walked chain starts at the class, follows `getSuperclass()` at each step, and ends at the class whose superclass is null |
| Runner.InterfacesAlongMembers | compiletest/src/main/java/org/transparent/diamond/compiletest/CompileTestRunner.java:73-78 | an interface is collected iff some class of the chain declares it directly |
| Runner.ProcessorIffDeclaredAlongChain | compiletest/src/main/java/org/transparent/diamond/compiletest/CompileTestRunner.java:73-85 | a class is kept as a processor iff the class or one of its superclasses directly declares `Processor` |
| Runner.SuperinterfacesNotFollowed | compiletest/src/main/java/org/transparent/diamond/compiletest/CompileTestRunner.java:76-79 | a class whose only interface extends `Processor` is not recognised |
| Runner.IsProcessor | compiletest/src/main/java/org/transparent/diamond/compiletest/CompileTestRunner.java:79 | a class is kept when `Processor` is among the interfaces declared along its superclass chain (characterised by `Runner.ProcessorIffDeclaredAlongChain`) |
| Runner.CollectInterfaces | compiletest/src/main/java/org/transparent/diamond/compiletest/CompileTestRunner.java:73-78 | the do-while loop's set is the union of the declared interfaces along the whole superclass chain |
| Runner.FirstProcessorTest | compiletest/src/main/java/org/transparent/diamond/compiletest/CompileTestRunner.java:87-93 | the result is None iff no annotation is a ProcessorTest. Otherwise it is the annotation at some index with no ProcessorTest before it |
| Runner.FindProcessorTest | compiletest/src/main/java/org/transparent/diamond/compiletest/CompileTestRunner.java:87-93 | the loop with `break` returns the first ProcessorTest |
| Runner.StubPieces | compiletest/src/main/java/org/transparent/diamond/compiletest/CompileTestRunner.java:103-132 | the `StringBuilder` appends for each supported target: at least three pieces, the first the import of the annotation, the last with no newline |
| Runner.StubSource | compiletest/src/main/java/org/transparent/diamond/compiletest/CompileTestRunner.java:101-135 | a stub exists iff the target is TYPE, METHOD, CONSTRUCTOR or FIELD, and it starts with `import N;\n`. Any other target gives `UnsupportedOperationException("Unsupported test target type " + name)` |
| Runner.StubSourceLines | compiletest/src/main/java/org/transparent/diamond/compiletest/CompileTestRunner.java:103-132 | read as lines, a stub is the import, then (inside `public class Example {` for members) `@N` directly above the marked class, `void example()`, `Example()` or `int example` |
| Runner.Resolve | compiletest/src/main/java/org/transparent/diamond/compiletest/CompileTestRunner.java:139 | `Path.resolve`: the result ends with the other path. A path starting at the root is returned unchanged. Any other path is placed below the base plus separator, and dropping that prefix gives the path back |
| Runner.ResolveExpected | compiletest/src/main/java/org/transparent/diamond/compiletest/CompileTestRunner.java:137-152 | no expected source exactly when expectedFile is empty and there are no inline lines; unreadable exactly when expectedFile is set and the resolved path cannot be read, and then it names that path |
| Runner.ExpectedFileTakesPrecedence | compiletest/src/main/java/org/transparent/diamond/compiletest/CompileTestRunner.java:137-141 | with a non-empty expectedFile, the inline lines do not matter and the case is never "not specified" |
| Runner.InlineExpectedRoundTrip | compiletest/src/main/java/org/transparent/diamond/compiletest/CompileTestRunner.java:141-147 | inline lines are joined with "\n" and no trailing newline: splitting the expected source gives them back |
| Runner.ExpectedFileRoundTrip | compiletest/src/main/java/org/transparent/diamond/compiletest/CompileTestRunner.java:138-140 | a readable expectedFile gives its lines joined with "\n": splitting the expected source gives back the file's lines (when it has some and none contains a newline) |
| Runner.JoinLines | compiletest/src/main/java/org/transparent/diamond/compiletest/CompileTestRunner.java:142-147 | the StringJoiner loop produces the "\n"-join of the lines |
| Runner.FileName | compiletest/src/main/java/org/transparent/diamond/compiletest/CompileTestRunner.java:62 | `getFileName()` is the last name element: a separator-free suffix of the path that is either the whole path or directly preceded by a separator |
| Runner.ValidRoot | compiletest/src/main/java/org/transparent/diamond/compiletest/CompileTestRunner.java:56 | the root is usable exactly when it is non-null, exists and is a directory |
| Runner.IsJavaSource | compiletest/src/main/java/org/transparent/diamond/compiletest/CompileTestRunner.java:62-66 | a walked path is kept when its file name ends in ".java" and it is an existing regular file |
| Runner.JavaSources | compiletest/src/main/java/org/transparent/diamond/compiletest/CompileTestRunner.java:61-67 | a walked path is kept iff its file name ends in ".java" and it is an existing regular file |
| Runner.ClassNameOf | compiletest/src/main/java/org/transparent/diamond/compiletest/CompileTestRunner.java:69 | the derived class name never contains the separator, so the artifact-key round trip applies to it |
| Runner.ClassNameLocatesSource | compiletest/src/main/java/org/transparent/diamond/compiletest/CompileTestRunner.java:69-70 | for `stem.java`, the name is the stem with separators as dots, and compiling it reads exactly the walked file |
| Runner.DeclarationStep | compiletest/src/main/java/org/transparent/diamond/compiletest/CompileTestRunner.java:86-152 | the declaration stage yields a test named after the class exactly when a ProcessorTest is present and nothing throws. A comparing test runs this processor class, compiles exactly the stub `StubSource` makes for the declaration's annotation and target, and compares with exactly the source `ResolveExpected` gives. Any abort is UnsupportedOperationException or the expected file's read failure |
| Runner.ClassStep | compiletest/src/main/java/org/transparent/diamond/compiletest/CompileTestRunner.java:70-72 | one walked class aborts with CompilerException naming it exactly when its compile returned nothing |
| Runner.ClassStepOutcomes | compiletest/src/main/java/org/transparent/diamond/compiletest/CompileTestRunner.java:68-165 | covers each outcome for one class:<br>• a failed compile, and only a failed compile, raises CompilerException;<br>• a compiled class is always found by its loader;<br>• a class that is not a processor, or has no ProcessorTest, is dropped, not failed;<br>• a test is named after a processor with a ProcessorTest;<br>• it always fails exactly when neither expected form is set |
| Runner.MissingExpectedStillYields | compiletest/src/main/java/org/transparent/diamond/compiletest/CompileTestRunner.java:148-151 | with neither expected form set, a test named after the class is still produced, and it always throws the IllegalArgumentException |
| Runner.InvalidAnnotationAborts | compiletest/src/main/java/org/transparent/diamond/compiletest/CompileTestRunner.java:97-99 | an annotation type that is not an annotation, or is an array, raises UnsupportedOperationException |
| Runner.UnsupportedTargetAborts | compiletest/src/main/java/org/transparent/diamond/compiletest/CompileTestRunner.java:133-135 | a valid marker on a target other than TYPE, METHOD, CONSTRUCTOR or FIELD raises UnsupportedOperationException naming the target |
| Runner.Collect | compiletest/src/main/java/org/transparent/diamond/compiletest/CompileTestRunner.java:61-166 | discovery aborts iff some step throws, and every test comes from a yielding step |
| Runner.CollectAppend | compiletest/src/main/java/org/transparent/diamond/compiletest/CompileTestRunner.java:61-166 | one more step after an unaborted prefix: a dropped class adds nothing, a test is appended, an exception stops discovery |
| Runner.NoDeclarationsNoTests | compiletest/src/main/java/org/transparent/diamond/compiletest/CompileTestRunner.java:164-166 | with no qualifying class there are no tests |
| Runner.ProcessClass | compiletest/src/main/java/org/transparent/diamond/compiletest/CompileTestRunner.java:68-165 | both stream stages for one class, using a fresh loader, the interface loop and the annotation loop, compute exactly ClassStep |
| Runner.DiscoverFile | compiletest/src/main/java/org/transparent/diamond/compiletest/CompileTestRunner.java:69-72 | a walked file is compiled under its derived name: the request is this wrapper's, from the source root, with no inline source and no processor, into the given output directory. The result is present iff the compiler succeeded on that request, then holds the collected output and the name, and the step is ClassStep of the result |
| Runner.DiscoveredTestsNameProcessors | compiletest/src/main/java/org/transparent/diamond/compiletest/CompileTestRunner.java:149-154 | every discovered test is named after a walked class that compiled and is a processor |
| Runner.TestsNameProcessors | compiletest/src/main/java/org/transparent/diamond/compiletest/CompileTestRunner.java:149-154 | every test of a discovery run is named after a processor class derived from some walked file |
| Runner.CompilerExceptionIffCompileFailed | compiletest/src/main/java/org/transparent/diamond/compiletest/CompileTestRunner.java:70 | discovery stops with a CompilerException for a walked class exactly when the compiler did not succeed on that class's request |
| Runner.CompiledClassesAlwaysLoad | compiletest/src/main/java/org/transparent/diamond/compiletest/CompileTestRunner.java:70-72 | discovery never stops with ClassNotFoundException for a class it just compiled |
| Runner.RunProcessorTestsIn | compiletest/src/main/java/org/transparent/diamond/compiletest/CompileTestRunner.java:54-167 | a null, missing or non-directory root raises IllegalArgumentException before anything is compiled. Otherwise the walked .java files are processed in order. File k is compiled by `compiler` from a request naming its derived class, with the constructor's classpath set (`ClasspathEntries` of the caller's classpath and the two jars), the root, no processor and output directory k; its result is what the compiler answered. Each step is ClassStep of its compile, and the result is the tests before the first exception. Discovery stops exactly at the first exception: stopping early implies one, an exception is the last step taken, and no earlier step threw. Every returned test is named after a walked class that is a processor |
| Runner.TestVerdict | compiletest/src/main/java/org/transparent/diamond/compiletest/CompileTestRunner.java:154-163 | a test passes exactly when it compares bytecode, the processor was instantiated, both compiles succeeded and hold `Example`, and the stripped class files are equal; an always-failing test fails with its own exception |
| Runner.RunTest | compiletest/src/main/java/org/transparent/diamond/compiletest/CompileTestRunner.java:154-163 | a test compiles the stub with the processor and the expected source without one, both as `Example`, then compares the stripped class files. An always-failing test throws its exception. A compiled `Example` is never missing, so the null-bytecode failure cannot occur. The compile wrapper is a parameter: the contract is stated against whatever wrapper is passed, not tied to the root and classpath of the discovery run that made the test |

## Left out

- javac is an oracle, `compiler: JavacRequest -> JavacOutcome`. Only `task.call()` and the collection of its output lie inside the `catch (Throwable)` of CompileTestUtils.java (lines 179-201); a Throwable there is the `Threw` outcome and gives an empty result. Exceptions from the compiler calls outside that catch would propagate to the caller and are not modelled: `getStandardFileManager` (line 137), `setLocation` (lines 145-146), `getRegularFile` and `getTask` (lines 168-175), `setProcessors` (line 177), and closing the file manager. Neither is the `IllegalStateException` of `buildCompiler` (lines 75-87, called from the constructor at line 40), nor the `RuntimeException` of `locationOfJar` (lines 63-69).
- Filesystem effects are not modelled: temp-directory creation and its timestamp name, writing the inline source, reading output bytes, and deleting the output directory afterwards. Each compile is given a fresh output path as a parameter. The output directory's regular files are a map from relative path to bytes.
- An `IOException` from `Files.createTempDirectory`, from writing the inline source, or from the cleanup walk is not modelled. These calls lie outside the `catch (Throwable)` and would propagate.
- `stripDebugInfo` is an opaque function parameter. ASM's `ClassReader` throwing on malformed bytes is not modelled.
- Reflection is an abstract `ClassGraph` keyed by class name, not derived from the loaded bytes. This covers `getInterfaces`, `getSuperclass` and `getAnnotations`. `Class.newInstance` is a function parameter returning an optional processor. Superclass chains are assumed acyclic, as the JVM guarantees.
- ClassLoading.AnnotationProcessorClassLoader.DefineClass: modelled only as far as the loader relies on it, the byte range and the once-per-name rule. Class-file format and name checks are not modelled. The JVM's `defineClass` also resolves the class's superclass and interfaces through this same loader's `loadClass`. So defining one table class can define other table classes first: with a table holding `A extends B` and `B`, loading `A` also defines `B`, while the model's `DefineClass` caches only the named class. A supertype that neither the table nor the parent supplies makes `defineClass` throw `NoClassDefFoundError`; the model has no such error, so the `Ok` of `ClassLoading.TableNamesNeverDelegated` presumes every supertype resolves. `findLoadedClass` also answers for names this loader only initiated and delegated to the parent; the model does not cache those and asks the parent again, which gives the same answer.
- Class-loading locks and `registerAsParallelCapable` are not modelled, because their purpose is concurrency.
- LambdaUtils.java is not part of this model. Its checked-exception laundering is what makes exceptions from the stream lambdas propagate, and that is modelled as `Abort`.
- JUnit's `DynamicTest` and `Assertions` are a datatype and a `Verdict`. The lazy stream is modelled by its observable effect: the tests yielded before the first exception.
- ProcessorTest.java declares `source()`, while the runner reads `expected()` and `expectedFile()`. The model follows the runner's two-field view.
- `System.getProperty("java.version")`, `File.separator`, the jar locations and the walk order are parameters. Diagnostics printed to `System.err` and `printStackTrace` output are not modelled.
- The 19 entries of `CompileUtils.RequiredExports` are taken from src/main/java/org/transparent/diamond/DiamondPlugin.java (lines 17-37). DiamondConstants.java is not part of this model.
- `Runner.Resolve` treats a path as absolute only when it starts with the separator. Windows drive-letter paths are not distinguished.
- Paths are joined as strings, without the normalisation of `Path.resolve` and `new File(parent, child)`: with a root of `/`, `CompileUtils.SourceFile` and `Runner.Resolve` give `//X.java` where Java gives `/X.java`.

## Findings

| source | as written | input that shows it | evidently intended | confidence | as-written member | corrected member |
|---|---|---|---|---|---|---|
| compiletest/src/main/java/org/transparent/diamond/compiletest/CompileTestUtils.java:116-118 | `compileWithAnnotationProcessor(clazzName, processor)` calls the three-argument overload with `null, null`, so the processor is discarded | any non-null processor `p`: the request carries no processors and no class list, so `p` never runs (`CompileUtils.AsWrittenDropsProcessor`) | pass the processor on, i.e. `compileWithAnnotationProcessor(clazzName, null, processor)`, as its documentation says | high; not executed | CompileUtils.CompileTestUtils.CompileWithProcessorAsWritten | CompileUtils.CompileTestUtils.CompileWithProcessor |

=== FILE: class_loader.dfy ===
/**
 * AnnotationProcessorClassLoader: a loader that owns a fixed table of class
 * bytes, defines each of those classes at most once, and hands every other
 * name to its parent.
 */
module ClassLoading {
  import opened Common

  /** Which loader defined a class; a definition by this loader carries its position in the definition order. */
  datatype Definer = ThisLoader(serial: nat) | ParentLoader

  /** A java.lang.Class as far as the harness can tell classes apart. */
  datatype Class = Class(name: string, bytecode: Bytes, definer: Definer)

  datatype LoadError =
    | ClassNotFound(name: string)    // the Java exception carries no message; the name is this model's own, to tell failures apart
    | LinkageError(name: string)     // a second defineClass of the same name
    | IndexOutOfBounds               // defineClass given an offset and length outside the array

  /** What findLoadedClass sees, and the names this loader has passed to defineClass, in order. */
  datatype LoaderState = LoaderState(loaded: map<string, Class>, defined: seq<string>)

  const Fresh := LoaderState(map[], [])

  /**
   * The loader's state agrees with its table: every cached class was defined by
   * this loader from the table's bytes, and every name was defined exactly once.
   */
  predicate Consistent(classes: map<string, Bytes>, s: LoaderState)
  {
    && (forall n :: n in s.loaded ==>
          && n in classes
          && s.loaded[n] == Class(n, classes[n], s.loaded[n].definer)
          && s.loaded[n].definer.ThisLoader?
          && s.loaded[n].definer.serial < |s.defined|
          && s.defined[s.loaded[n].definer.serial] == n)
    && (forall i :: 0 <= i < |s.defined| ==> s.defined[i] in s.loaded)
    && NoDuplicates(s.defined)
  }

  /** super.loadClass for a name this loader neither cached nor owns: the parent's class, or not found. */
  function Delegate(parent: string -> Option<Bytes>, name: string): (r: Result<Class, LoadError>)
    ensures r.Ok? <==> parent(name).Some?
    ensures r.Ok? ==> r.value.name == name && r.value.bytecode == parent(name).value && r.value.definer == ParentLoader
    ensures r.Err? ==> r.error == ClassNotFound(name)
  {
    match parent(name)
    case Some(b) => Ok(Class(name, b, ParentLoader))
    case None => Err(ClassNotFound(name))
  }

  /** loadClass(name, resolve): cache first, then the own table (defining once), then the parent. */
  function Load(classes: map<string, Bytes>, parent: string -> Option<Bytes>, s: LoaderState, name: string)
    : (r: (LoaderState, Result<Class, LoadError>))
    ensures r.0.loaded.Keys == s.loaded.Keys + (if name in classes then {name} else {})
    ensures name in s.loaded || name in classes ==> name in r.0.loaded && r.1 == Ok(r.0.loaded[name])
    ensures name !in s.loaded && name !in classes ==> r.0 == s && (r.1.Ok? <==> parent(name).Some?)
  {
    if name in s.loaded then (s, Ok(s.loaded[name]))
    else if name in classes then
      var c := Class(name, classes[name], ThisLoader(|s.defined|));
      (LoaderState(s.loaded[name := c], s.defined + [name]), Ok(c))
    else (s, Delegate(parent, name))
  }

  /** A run of loadClass calls on one loader, with the result of each. */
  function LoadAll(classes: map<string, Bytes>, parent: string -> Option<Bytes>, s: LoaderState, names: seq<string>)
    : (r: (LoaderState, seq<Result<Class, LoadError>>))
    ensures |r.1| == |names|
    decreases |names|
  {
    if names == [] then (s, [])
    else
      var (s1, first) := Load(classes, parent, s, names[0]);
      var (s2, rest) := LoadAll(classes, parent, s1, names[1..]);
      (s2, [first] + rest)
  }

  // ---------------------------------------------------------------------------
  // Properties of one lookup

  /** A name in the table is always answered from the table's bytes by this loader, never by the parent. */
  lemma TableNamesNeverDelegated(classes: map<string, Bytes>, parent: string -> Option<Bytes>, s: LoaderState, name: string)
    requires Consistent(classes, s)
    requires name in classes
    ensures var r := Load(classes, parent, s, name).1;
      r.Ok? && r.value.name == name && r.value.bytecode == classes[name] && r.value.definer.ThisLoader?
  {
  }

  /** A lookup leaves the loader unchanged exactly when the name was already cached or is not in the table. */
  lemma LoadChangesStateIff(classes: map<string, Bytes>, parent: string -> Option<Bytes>, s: LoaderState, name: string)
    ensures Load(classes, parent, s, name).0 == s <==> (name in s.loaded || name !in classes)
  {
    if name !in s.loaded && name in classes {
      assert |Load(classes, parent, s, name).0.defined| == |s.defined| + 1;
    }
  }

  /** Each lookup keeps the loader consistent with its table; in particular no name is ever defined twice. */
  lemma LoadPreservesConsistent(classes: map<string, Bytes>, parent: string -> Option<Bytes>, s: LoaderState, name: string)
    requires Consistent(classes, s)
    ensures Consistent(classes, Load(classes, parent, s, name).0)
  {
    if name !in s.loaded && name in classes {
      var s' := Load(classes, parent, s, name).0;
      assert name !in s.defined by {
        if i :| 0 <= i < |s.defined| && s.defined[i] == name {
          assert s.defined[i] in s.loaded;
        }
      }
      forall n | n in s'.loaded
        ensures s'.loaded[n].definer.ThisLoader? && s'.loaded[n].definer.serial < |s'.defined|
        ensures s'.defined[s'.loaded[n].definer.serial] == n
      {
        if n != name {
          assert s'.loaded[n] == s.loaded[n];
          assert s'.defined[s.loaded[n].definer.serial] == s.defined[s.loaded[n].definer.serial];
        }
      }
    }
  }

  // ---------------------------------------------------------------------------
  // Properties of a run of lookups

  /** The answer for `name` is fixed: cached as `r`, or delegated and bound to be delegated again. */
  ghost predicate Settled(classes: map<string, Bytes>, parent: string -> Option<Bytes>, s: LoaderState, name: string, r: Result<Class, LoadError>)
  {
    || (name in s.loaded && r == Ok(s.loaded[name]))
    || (name !in s.loaded && name !in classes && r == Delegate(parent, name))
  }

  /** Once settled, a name stays settled through any number of further lookups, and every later lookup of it returns the same answer. */
  lemma {:induction false} SettledStaysSettled(classes: map<string, Bytes>, parent: string -> Option<Bytes>, s: LoaderState,
                                               names: seq<string>, name: string, r: Result<Class, LoadError>)
    requires Settled(classes, parent, s, name, r)
    ensures Settled(classes, parent, LoadAll(classes, parent, s, names).0, name, r)
    ensures forall k :: 0 <= k < |names| && names[k] == name ==> LoadAll(classes, parent, s, names).1[k] == r
    decreases |names|
  {
    if names != [] {
      var s1 := Load(classes, parent, s, names[0]).0;
      assert Settled(classes, parent, s1, name, r);
      SettledStaysSettled(classes, parent, s1, names[1..], name, r);
      var rs := LoadAll(classes, parent, s, names).1;
      forall k | 0 <= k < |names| && names[k] == name ensures rs[k] == r {
        if k > 0 {
          assert names[1..][k - 1] == name;
        }
      }
    }
  }

  /**
   * Within one loader's lifetime, every lookup of the same name returns the
   * same class: a name is defined at most once and then always served from the cache.
   */
  lemma {:induction false} LoadsOfSameNameAgree(classes: map<string, Bytes>, parent: string -> Option<Bytes>, s: LoaderState,
                                                names: seq<string>, i: nat, j: nat)
    requires i < j < |names| && names[i] == names[j]
    ensures LoadAll(classes, parent, s, names).1[i] == LoadAll(classes, parent, s, names).1[j]
    decreases |names|
  {
    var (s1, first) := Load(classes, parent, s, names[0]);
    if i == 0 {
      assert Settled(classes, parent, s1, names[0], first);
      SettledStaysSettled(classes, parent, s1, names[1..], names[0], first);
      assert names[1..][j - 1] == names[0];
    } else {
      LoadsOfSameNameAgree(classes, parent, s1, names[1..], i - 1, j - 1);
    }
  }

  /** Any run of lookups from a consistent state ends consistent: each name is defined at most once per loader. */
  lemma {:induction false} LoadAllDefinesAtMostOnce(classes: map<string, Bytes>, parent: string -> Option<Bytes>, s: LoaderState, names: seq<string>)
    requires Consistent(classes, s)
    ensures Consistent(classes, LoadAll(classes, parent, s, names).0)
    ensures NoDuplicates(LoadAll(classes, parent, s, names).0.defined)
    decreases |names|
  {
    if names != [] {
      LoadPreservesConsistent(classes, parent, s, names[0]);
      LoadAllDefinesAtMostOnce(classes, parent, Load(classes, parent, s, names[0]).0, names[1..]);
    }
  }

  // ---------------------------------------------------------------------------
  // The loader object

  class AnnotationProcessorClassLoader {
    /** The name-to-bytes table; fixed at construction and only ever read. */
    const classes: map<string, Bytes>
    /** The parent loader's view of class names. */
    const parent: string -> Option<Bytes>
    /** findLoadedClass's answers. */
    var loaded: map<string, Class>
    /** Every defineClass call this loader made, in order. */
    var defined: seq<string>

    function State(): LoaderState
      reads this
    {
      LoaderState(loaded, defined)
    }

    ghost predicate Valid()
      reads this
    {
      Consistent(classes, State())
    }

    constructor (classes: map<string, Bytes>, parent: string -> Option<Bytes>)
      ensures this.classes == classes && this.parent == parent
      ensures State() == Fresh
      ensures Valid()
    {
      this.classes := classes;
      this.parent := parent;
      loaded := map[];
      defined := [];
    }

    function FindLoadedClass(name: string): (r: Option<Class>)
      reads this
      ensures r.Some? <==> name in loaded
      ensures r.Some? ==> r.value == loaded[name]
    {
      if name in loaded then Some(loaded[name]) else None
    }

    /** ClassLoader.defineClass(name, b, off, len): defines from `len` bytes of `b` starting at `off`, once per name. */
    method DefineClass(name: string, b: Bytes, off: nat, len: nat) returns (r: Result<Class, LoadError>)
      modifies this
      ensures off + len > |b| ==> r == Err(IndexOutOfBounds) && State() == old(State())
      ensures off + len <= |b| && name in old(loaded) ==> r == Err(LinkageError(name)) && State() == old(State())
      ensures off + len <= |b| && name !in old(loaded) ==>
        && r == Ok(Class(name, b[off..off + len], ThisLoader(|old(defined)|)))
        && loaded == old(loaded)[name := r.value]
        && defined == old(defined) + [name]
    {
      if off + len > |b| {
        return Err(IndexOutOfBounds);
      }
      if name in loaded {
        return Err(LinkageError(name));
      }
      var c := Class(name, b[off..off + len], ThisLoader(|defined|));
      loaded := loaded[name := c];
      defined := defined + [name];
      r := Ok(c);
    }

    /** findClass: defines a table name from its whole byte array; any other name is not found. */
    method FindClass(name: string) returns (r: Result<Class, LoadError>)
      modifies this
      ensures name !in classes ==> r == Err(ClassNotFound(name)) && State() == old(State())
      ensures name in classes && name in old(loaded) ==> r == Err(LinkageError(name)) && State() == old(State())
      ensures name in classes && name !in old(loaded) ==>
        && r == Ok(Class(name, classes[name], ThisLoader(|old(defined)|)))
        && loaded == old(loaded)[name := r.value]
        && defined == old(defined) + [name]
    {
      if name in classes {
        var bytecode := classes[name];
        r := DefineClass(name, bytecode, 0, |bytecode|);
        assert bytecode[0..|bytecode|] == bytecode;
      } else {
        r := Err(ClassNotFound(name));
      }
    }

    /** loadClass(name, resolve): the lookup order of Load, keeping the loader Valid. */
    method LoadClass(name: string, resolve: bool) returns (r: Result<Class, LoadError>)
      requires Valid()
      modifies this
      ensures Valid()
      ensures (State(), r) == Load(classes, parent, old(State()), name)
    {
      LoadPreservesConsistent(classes, parent, State(), name);
      var c := FindLoadedClass(name);
      if c.None? {
        if name in classes {
          r := FindClass(name);
        } else {
          r := Delegate(parent, name);
        }
      } else {
        r := Ok(c.value);
      }
    }
  }
}

=== FILE: common.dfy ===
/** Shared vocabulary of the compile-test harness model: bytes, paths, optional values. */
module Common {

  /** One byte of a class file, as Java's signed byte reinterpreted as 0..255. */
  newtype byte = x: int | 0 <= x < 256

  type Bytes = seq<byte>

  /** A filesystem path, as the string Java's File and Path print. */
  type File = string

  /** A CompiledArtifactSet: binary class name to class-file bytes. */
  type Artifacts = map<string, Bytes>

  /** Java's Optional / a nullable reference. */
  datatype Option<T> = None | Some(value: T)

  /** A value or the exception that was thrown instead. */
  datatype Result<T, E> = Ok(value: T) | Err(error: E)

  predicate NoDuplicates<T(==)>(s: seq<T>)
  {
    forall i, j :: 0 <= i < j < |s| ==> s[i] != s[j]
  }

  function Last<T>(s: seq<T>): T
    requires |s| > 0
  {
    s[|s| - 1]
  }

  /** File.separatorChar on the platforms Java runs on. */
  predicate ValidSeparator(sep: char)
  {
    sep == '/' || sep == '\\'
  }
}

=== FILE: compile_utils.dfy ===
/**
 * CompileTestUtils: the bookkeeping around one javac invocation. The compiler
 * is an oracle from the request it is given to what it leaves in the output
 * directory; everything the wrapper computes around it is modelled here:
 * the classpath, the option list, where the input is and where the primary
 * class file must appear, the success test, and the artifact keys.
 */
module CompileUtils {
  import opened Common
  import opened Text

  /** An annotation processor instance, as handed to javac. */
  datatype Processor = Processor(className: string)

  /** Everything the wrapper hands to javac for one compilation. */
  datatype JavacRequest = JavacRequest(
    classpath: seq<File>,                                  // StandardLocation.CLASS_PATH
    classOutput: File,                                     // StandardLocation.CLASS_OUTPUT
    options: seq<string>,
    classesForAnnotationProcessing: Option<seq<string>>,   // None is null
    processors: Option<seq<Processor>>,                    // None: setProcessors is not called
    compilationUnit: File,
    writtenSource: Option<string>)                         // text written to compilationUnit first

  /**
   * What javac leaves behind: whether task.call() reported success, with the
   * regular files under the output directory keyed by their relative path;
   * or a Throwable escaping the call or the collection of its output.
   */
  datatype JavacOutcome = Completed(success: bool, outputFiles: map<string, Bytes>) | Threw

  const AddExports := "--add-exports"

  /**
   * The compiler packages that must be exported to unnamed modules, as listed in
   * src/main/java/org/transparent/diamond/DiamondPlugin.java (lines 17-37); the
   * DiamondConstants class the wrapper reads them from is not part of this model.
   */
  const RequiredExports: seq<string> := [
    "com.sun.source.doctree", "com.sun.source.tree", "com.sun.source.util",
    "com.sun.tools.javac", "com.sun.tools.javac.api", "com.sun.tools.javac.code",
    "com.sun.tools.javac.comp", "com.sun.tools.javac.file", "com.sun.tools.javac.jvm",
    "com.sun.tools.javac.main", "com.sun.tools.javac.model", "com.sun.tools.javac.nio",
    "com.sun.tools.javac.parser", "com.sun.tools.javac.processing", "com.sun.tools.javac.resources",
    "com.sun.tools.javac.services", "com.sun.tools.javac.sym", "com.sun.tools.javac.tree",
    "com.sun.tools.javac.util"]

  /** Java 9 and later report versions like "9", "11.0.2", "17"; Java 8 and older "1.8.0_292". */
  function IsJava9OrAbove(javaVersion: string): (r: bool)
    ensures r <==> !(|javaVersion| >= 2 && javaVersion[0] == '1' && javaVersion[1] == '.')
  {
    !StartsWith(javaVersion, "1.")
  }

  function ExportValue(exported: string): (r: string)
    ensures StartsWith(r, "jdk.compiler/") && EndsWith(r, "=ALL-UNNAMED")
    ensures |r| == |exported| + 25
    ensures r[|"jdk.compiler/"|..|r| - |"=ALL-UNNAMED"|] == exported
  {
    "jdk.compiler/" + exported + "=ALL-UNNAMED"
  }

  /** Each export, in order, as the pair "--add-exports", "jdk.compiler/<export>=ALL-UNNAMED". */
  predicate IsExportOptionList(options: seq<string>, exports: seq<string>)
  {
    && |options| == 2 * |exports|
    && forall i :: 0 <= i < |exports| ==> options[2 * i] == AddExports && options[2 * i + 1] == ExportValue(exports[i])
  }

  // ---------------------------------------------------------------------------
  // Names and paths

  /** clazzName.replace(".", File.separator): the class's path below a root, without extension. */
  function ClassPathBase(clazzName: string, sep: char): (r: string)
    ensures sep != '.' ==> '.' !in r
  {
    ReplaceAll(clazzName, ".", [sep])
  }

  /**
   * new File(sourceRoot, clazzName.replace('.', File.separatorChar) + ".java"):
   * the input when no source is supplied, a ".java" file below sourceRoot whose
   * relative path has no dot before the extension.
   */
  function SourceFile(sourceRoot: File, clazzName: string, sep: char): (r: File)
    ensures StartsWith(r, sourceRoot + [sep]) && EndsWith(r, ".java")
    ensures |r| == |sourceRoot| + |clazzName| + 6
    ensures sep != '.' ==> '.' !in r[|sourceRoot| + 1..|r| - 5]
  {
    var base := ReplaceChar(clazzName, '.', sep);
    if sep != '.' then ReplaceCharRemoves(clazzName, '.', sep); sourceRoot + [sep] + base + ".java"
    else sourceRoot + [sep] + base + ".java"
  }

  /** new File(outputPath, outputClassPathBase + ".java"): where supplied source is written and read from, below the output directory. */
  function InlineSourceFile(outputPath: File, clazzName: string, sep: char): (r: File)
    ensures StartsWith(r, outputPath + [sep]) && EndsWith(r, ".java")
    ensures |r| >= |outputPath| + 6
    ensures sep != '.' ==> '.' !in r[|outputPath| + 1..|r| - 5]
  {
    var base := ClassPathBase(clazzName, sep);
    assert (outputPath + [sep] + base + ".java")[|outputPath| + 1..|outputPath| + 1 + |base|] == base;
    outputPath + [sep] + base + ".java"
  }

  /** outputPath.resolve(outputClassPathBase + ".class"), relative to the output directory: a dot-free path plus ".class". */
  function PrimaryArtifact(clazzName: string, sep: char): (r: string)
    ensures EndsWith(r, ".class")
    ensures sep != '.' ==> '.' !in r[..|r| - 6]
  {
    var base := ClassPathBase(clazzName, sep);
    assert (base + ".class")[..|base|] == base;
    base + ".class"
  }

  /** The key an output file is stored under: its relative path with ".class" removed and separators turned into dots, so no separator is left. */
  function ArtifactKey(relativePath: string, sep: char): (r: string)
    ensures ValidSeparator(sep) ==> sep !in r
  {
    ReplaceAll(ReplaceAll(relativePath, ".class", ""), [sep], ".")
  }

  /**
   * task.call() returned true and the primary class file exists; then the
   * output holds a file whose key is the class name itself.
   */
  predicate Succeeded(outcome: JavacOutcome, clazzName: string, sep: char): (r: bool)
    ensures r && ValidSeparator(sep) && sep !in clazzName ==>
      outcome.Completed? && exists p :: p in outcome.outputFiles && ArtifactKey(p, sep) == clazzName
  {
    var found := outcome.Completed? && outcome.success && PrimaryArtifact(clazzName, sep) in outcome.outputFiles;
    if found && ValidSeparator(sep) && sep !in clazzName then ArtifactKeyRoundTrip(clazzName, sep); found
    else found
  }

  /**
   * `out` is what putting ArtifactKey(p) -> bytes of p into a HashMap, for every
   * output file p in some walk order, can leave: exactly the keys of the files,
   * each holding the bytes of a file with that key.
   */
  ghost predicate CollectedFrom(out: Artifacts, files: map<string, Bytes>, sep: char)
  {
    && out.Keys == (set p | p in files :: ArtifactKey(p, sep))
    && forall k :: k in out ==> exists p :: p in files && ArtifactKey(p, sep) == k && out[k] == files[p]
  }

  // ---------------------------------------------------------------------------
  // Properties of the rewrites

  /**
   * The two spellings of "dots to separators" in CompileTestUtils.java agree:
   * the string replace that gives the inline input's base (line 136) and the
   * character replace that places the source-root input (line 149). Both inputs sit at
   * the same relative path.
   */
  lemma InputPathsAgree(sourceRoot: File, outputPath: File, clazzName: string, sep: char)
    ensures SourceFile(sourceRoot, clazzName, sep) == sourceRoot + [sep] + ClassPathBase(clazzName, sep) + ".java"
    ensures InlineSourceFile(outputPath, clazzName, sep) == outputPath + [sep] + ClassPathBase(clazzName, sep) + ".java"
  {
    ReplaceSingleChar(clazzName, '.', sep);
  }

  /**
   * Round trip: the key derived from the primary class file's path is the class
   * name itself, for any name that does not contain the separator. (A name such
   * as "a.class" survives too: once its dots are separators the only ".class"
   * left is the extension.)
   */
  lemma ArtifactKeyRoundTrip(clazzName: string, sep: char)
    requires ValidSeparator(sep) && sep !in clazzName
    ensures ArtifactKey(PrimaryArtifact(clazzName, sep), sep) == clazzName
  {
    var base := ClassPathBase(clazzName, sep);
    ReplaceSingleChar(clazzName, '.', sep);
    ReplaceCharRemoves(clazzName, '.', sep);
    assert '.' !in base;
    ReplaceAllSkipsPrefix(base, ".class", ".class", "");
    assert ReplaceAll(".class", ".class", "") == "";
    assert base + "" == base;
    ReplaceSingleChar(base, sep, '.');
    ReplaceCharRoundTrip(clazzName, '.', sep);
  }

  /** When the compile succeeded, the map collected from its output holds the class's own name as a key. */
  lemma SucceededHasClassKey(out: Artifacts, outcome: JavacOutcome, clazzName: string, sep: char)
    requires ValidSeparator(sep) && sep !in clazzName
    requires Succeeded(outcome, clazzName, sep)
    requires CollectedFrom(out, outcome.outputFiles, sep)
    ensures clazzName in out
  {
    ArtifactKeyRoundTrip(clazzName, sep);
    var p := PrimaryArtifact(clazzName, sep);
    assert ArtifactKey(p, sep) in (set q | q in outcome.outputFiles :: ArtifactKey(q, sep));
  }

  /** A file whose key no other output file shares is found under that key with its own bytes. */
  lemma CollectedUniqueKey(out: Artifacts, files: map<string, Bytes>, p: string, sep: char)
    requires CollectedFrom(out, files, sep)
    requires p in files
    requires forall q :: q in files && ArtifactKey(q, sep) == ArtifactKey(p, sep) ==> q == p
    ensures ArtifactKey(p, sep) in out && out[ArtifactKey(p, sep)] == files[p]
  {
    assert ArtifactKey(p, sep) in (set q | q in files :: ArtifactKey(q, sep));
  }

  // ---------------------------------------------------------------------------
  // Loops of the wrapper

  /** The --add-exports options: one pair per export on Java 9 and later, none before. */
  method AddExportsOptions(exports: seq<string>, javaVersion: string) returns (options: seq<string>)
    ensures IsJava9OrAbove(javaVersion) ==> IsExportOptionList(options, exports)
    ensures !IsJava9OrAbove(javaVersion) ==> options == []
  {
    options := [];
    if IsJava9OrAbove(javaVersion) {
      for k := 0 to |exports|
        invariant IsExportOptionList(options, exports[..k])
      {
        options := options + [AddExports, ExportValue(exports[k])];
      }
      assert exports[..|exports|] == exports;
    }
  }

  /** new ArrayList<>(set): the set's elements, each once, in an order the model leaves open. */
  method ListOf(s: set<File>) returns (r: seq<File>)
    ensures |r| == |s| && NoDuplicates(r)
    ensures forall f :: f in r <==> f in s
  {
    r := [];
    var rest := s;
    while rest != {}
      invariant rest <= s
      invariant forall f :: f in r <==> f in s && f !in rest
      invariant NoDuplicates(r)
      invariant |r| + |rest| == |s|
      decreases |rest|
    {
      var f :| f in rest;
      r := r + [f];
      rest := rest - {f};
    }
  }

  /** Files.walk(outputPath).forEach(put(ArtifactKey(p), bytes of p)), the walk order left open. */
  method CollectArtifacts(files: map<string, Bytes>, sep: char) returns (out: Artifacts)
    ensures CollectedFrom(out, files, sep)
  {
    out := map[];
    var pending := files.Keys;
    ghost var walked: set<string> := {};
    while pending != {}
      invariant pending + walked == files.Keys && pending !! walked
      invariant out.Keys == (set p | p in walked :: ArtifactKey(p, sep))
      invariant forall k :: k in out ==> exists p :: p in walked && ArtifactKey(p, sep) == k && out[k] == files[p]
      decreases |pending|
    {
      var p :| p in pending;
      out := out[ArtifactKey(p, sep) := files[p]];
      pending := pending - {p};
      walked := walked + {p};
    }
  }

  // ---------------------------------------------------------------------------
  // The request and its answer

  /** The constructor's classpath set: the caller's entries, this library's jar, and before Java 9 the compiler's jar. */
  function ClasspathEntries(classpath: Option<seq<File>>, javaVersion: string, libraryJar: File, compilerJar: File): (r: set<File>)
    ensures libraryJar in r
    ensures forall f :: f in r <==>
      || (classpath.Some? && f in classpath.value)
      || f == libraryJar
      || (!IsJava9OrAbove(javaVersion) && f == compilerJar)
  {
    (if classpath.Some? then set f | f in classpath.value else {})
      + {libraryJar}
      + (if IsJava9OrAbove(javaVersion) then {} else {compilerJar})
  }

  /**
   * What the wrapper hands javac when compiling `clazzName` into `outputPath`,
   * given its classpath set, source root, Java version and separator.
   */
  ghost predicate IsRequest(request: JavacRequest, classpath: set<File>, sourceRoot: File, javaVersion: string, sep: char,
                            clazzName: string, clazzSource: Option<string>, processor: Option<Processor>, outputPath: File)
  {
    // the classpath set in some order, then sourceRoot, then the output directory
    && |request.classpath| == |classpath| + 2
    && (forall f :: f in request.classpath[..|classpath|] <==> f in classpath)
    && request.classpath[|classpath|..] == [sourceRoot, outputPath]
    && request.classOutput == outputPath
    && (IsJava9OrAbove(javaVersion) ==> IsExportOptionList(request.options, RequiredExports))
    && (!IsJava9OrAbove(javaVersion) ==> request.options == [])
    // the input: under sourceRoot, or written below the output directory
    && request.writtenSource == clazzSource
    && request.compilationUnit ==
         (if clazzSource.None? then SourceFile(sourceRoot, clazzName, sep)
          else InlineSourceFile(outputPath, clazzName, sep))
    // a processor, when given, runs on exactly this class
    && request.processors == (if processor.Some? then Some([processor.value]) else None)
    && request.classesForAnnotationProcessing == (if processor.Some? then Some([clazzName]) else None)
  }

  /** The result: present exactly when javac succeeded and left the primary class file, and then keyed by class name. */
  ghost predicate Answers(compiler: JavacRequest -> JavacOutcome, sep: char, result: Option<Artifacts>,
                          request: JavacRequest, clazzName: string)
  {
    && (result.Some? <==> Succeeded(compiler(request), clazzName, sep))
    && (result.Some? ==> CollectedFrom(result.value, compiler(request).outputFiles, sep))
  }

  // ---------------------------------------------------------------------------
  // The wrapper object

  class CompileTestUtils {
    const compiler: JavacRequest -> JavacOutcome
    const sourceRoot: File
    /** The caller's entries, this library's jar, and on old JDKs the compiler's jar. */
    var classpath: set<File>
    /** System.getProperty("java.version"). */
    const javaVersion: string
    /** File.separatorChar. */
    const separator: char

    constructor (sourceRoot: File, classpath: Option<seq<File>>, compiler: JavacRequest -> JavacOutcome,
                 javaVersion: string, separator: char, libraryJar: File, compilerJar: File)
      ensures this.sourceRoot == sourceRoot && this.compiler == compiler
      ensures this.javaVersion == javaVersion && this.separator == separator
      ensures this.classpath == ClasspathEntries(classpath, javaVersion, libraryJar, compilerJar)
      ensures forall f :: f in this.classpath <==>
        || (classpath.Some? && f in classpath.value)
        || f == libraryJar
        || (!IsJava9OrAbove(javaVersion) && f == compilerJar)
    {
      this.compiler := compiler;
      this.sourceRoot := sourceRoot;
      this.javaVersion := javaVersion;
      this.separator := separator;
      var entries: set<File> := {};
      if classpath.Some? {
        entries := entries + set f | f in classpath.value;
      }
      entries := entries + {libraryJar};
      if !IsJava9OrAbove(javaVersion) {
        entries := entries + {compilerJar};
      }
      this.classpath := entries;
    }

    /** What this wrapper hands javac when compiling `clazzName` into `outputPath`. */
    ghost predicate RequestFor(request: JavacRequest, clazzName: string, clazzSource: Option<string>,
                               processor: Option<Processor>, outputPath: File): (r: bool)
      reads this
      ensures r ==> request.classOutput in request.classpath && sourceRoot in request.classpath
      ensures r ==> (request.processors.Some? <==> request.classesForAnnotationProcessing.Some?)
    {
      var r := IsRequest(request, classpath, sourceRoot, javaVersion, separator, clazzName, clazzSource, processor, outputPath);
      if r then
        var tail := request.classpath[|classpath|..];
        assert tail[0] == request.classpath[|classpath|] == sourceRoot;
        assert tail[1] == request.classpath[|classpath| + 1] == outputPath;
        r
      else r
    }

    /** This wrapper's compiler answered `request` with `result`. */
    ghost predicate AnswersRequest(result: Option<Artifacts>, request: JavacRequest, clazzName: string)
      reads this
    {
      Answers(compiler, separator, result, request, clazzName)
    }

    /** compileWithAnnotationProcessor(clazzName, clazzSource, processor), in a fresh output directory `outputPath`. */
    method CompileWithAnnotationProcessor(clazzName: string, clazzSource: Option<string>, processor: Option<Processor>,
                                          outputPath: File)
      returns (result: Option<Artifacts>, ghost request: JavacRequest)
      requires ValidSeparator(separator)
      ensures RequestFor(request, clazzName, clazzSource, processor, outputPath)
      ensures AnswersRequest(result, request, clazzName)
      ensures result.Some? && separator !in clazzName ==> clazzName in result.value
    {
      var entries := ListOf(classpath);
      var finalClasspath := entries + [sourceRoot, outputPath];
      assert finalClasspath[..|classpath|] == entries && finalClasspath[|classpath|..] == [sourceRoot, outputPath];
      var inputFile: File;
      if clazzSource.None? {
        inputFile := SourceFile(sourceRoot, clazzName, separator);
      } else {
        inputFile := InlineSourceFile(outputPath, clazzName, separator);
      }
      var options := AddExportsOptions(RequiredExports, javaVersion);
      var classesForAnnotationProcessing: Option<seq<string>> := None;
      if processor.Some? {
        classesForAnnotationProcessing := Some([clazzName]);
      }
      var processors: Option<seq<Processor>> := None;
      if processor.Some? {
        processors := Some([processor.value]);
      }
      var task := JavacRequest(finalClasspath, outputPath, options, classesForAnnotationProcessing,
                               processors, inputFile, clazzSource);
      request := task;
      assert IsRequest(task, classpath, sourceRoot, javaVersion, separator, clazzName, clazzSource, processor, outputPath);
      var outcome := compiler(task);
      if Succeeded(outcome, clazzName, separator) {
        var out := CollectArtifacts(outcome.outputFiles, separator);
        result := Some(out);
        if separator !in clazzName {
          SucceededHasClassKey(out, outcome, clazzName, separator);
        }
      } else {
        result := None;
      }
    }

    /** compileWithAnnotationProcessor(clazzName, processor) as written: the processor is dropped. */
    method CompileWithProcessorAsWritten(clazzName: string, processor: Option<Processor>, outputPath: File)
      returns (result: Option<Artifacts>, ghost request: JavacRequest)
      requires ValidSeparator(separator)
      ensures RequestFor(request, clazzName, None, None, outputPath)
      ensures AnswersRequest(result, request, clazzName)
      ensures result.Some? && separator !in clazzName ==> clazzName in result.value
    {
      result, request := CompileWithAnnotationProcessor(clazzName, None, None, outputPath);
    }

    /** compileWithAnnotationProcessor(clazzName, processor) as documented: the processor is passed on. */
    method CompileWithProcessor(clazzName: string, processor: Option<Processor>, outputPath: File)
      returns (result: Option<Artifacts>, ghost request: JavacRequest)
      requires ValidSeparator(separator)
      ensures RequestFor(request, clazzName, None, processor, outputPath)
      ensures AnswersRequest(result, request, clazzName)
      ensures result.Some? && separator !in clazzName ==> clazzName in result.value
    {
      result, request := CompileWithAnnotationProcessor(clazzName, None, processor, outputPath);
    }

    /** compile(clazzName): the class's source under sourceRoot, no processor. */
    method Compile(clazzName: string, outputPath: File) returns (result: Option<Artifacts>, ghost request: JavacRequest)
      requires ValidSeparator(separator)
      ensures RequestFor(request, clazzName, None, None, outputPath)
      ensures AnswersRequest(result, request, clazzName)
      ensures result.Some? && separator !in clazzName ==> clazzName in result.value
    {
      result, request := CompileWithProcessor(clazzName, None, outputPath);
    }
  }

  /** The request the as-written two-argument overload sends is never the one that would run the given processor. */
  lemma AsWrittenDropsProcessor(u: CompileTestUtils, request: JavacRequest, clazzName: string, p: Processor, outputPath: File)
    requires u.RequestFor(request, clazzName, None, None, outputPath)
    ensures !u.RequestFor(request, clazzName, None, Some(p), outputPath)
  {
  }
}

=== FILE: runner.dfy ===
/**
 * CompileTestRunner.runProcessorTestsIn: walk a source tree, compile every
 * .java file, keep the annotation processors that carry @ProcessorTest, and
 * turn each declaration into a named test that compiles a synthesized stub
 * with the processor and the expected source without it, then compares the
 * two class files with debug information stripped.
 */
module Runner {
  import opened Common
  import opened Text
  import ClassLoading
  import opened CompileUtils

  // ---------------------------------------------------------------------------
  // Reflection, as the runner sees it

  /** java.lang.annotation.ElementType. */
  datatype ElementType =
    | Type | Field | Method | Parameter | Constructor | LocalVariable | AnnotationType
    | Package | TypeParameter | TypeUse | Module | RecordComponent
  {
    /** The constant's name, as ElementType.toString() prints it. */
    function Name(): string
    {
      match this
      case Type => "TYPE"
      case Field => "FIELD"
      case Method => "METHOD"
      case Parameter => "PARAMETER"
      case Constructor => "CONSTRUCTOR"
      case LocalVariable => "LOCAL_VARIABLE"
      case AnnotationType => "ANNOTATION_TYPE"
      case Package => "PACKAGE"
      case TypeParameter => "TYPE_PARAMETER"
      case TypeUse => "TYPE_USE"
      case Module => "MODULE"
      case RecordComponent => "RECORD_COMPONENT"
    }
  }

  /** The four targets a stub can be synthesized for. */
  const SupportedTargets: set<ElementType> := {Type, Method, Constructor, Field}

  /** A Class<?> read from an annotation member: its name and the two tests the runner applies to it. */
  datatype ClassRef = ClassRef(name: string, isAnnotation: bool, isArray: bool)

  /** @ProcessorTest as the runner reads it: annotation(), target(), expected(), expectedFile(). */
  datatype ProcessorTestDecl = ProcessorTestDecl(annotation: ClassRef, target: ElementType, expected: seq<string>, expectedFile: string)

  datatype Annotation = ProcessorTestAnnotation(decl: ProcessorTestDecl) | OtherAnnotation(annotationType: string)

  /**
   * What reflection reports about classes, by binary name: getSuperclass()
   * (no entry: null), getInterfaces() and getAnnotations().
   */
  datatype ClassGraph = ClassGraph(
    superclassOf: map<string, string>,
    interfacesOf: map<string, seq<string>>,
    annotationsOf: map<string, seq<Annotation>>)

  const ProcessorInterface := "javax.annotation.processing.Processor"

  function DeclaredInterfaces(g: ClassGraph, c: string): set<string>
  {
    if c in g.interfacesOf then set i | i in g.interfacesOf[c] else {}
  }

  function Annotations(g: ClassGraph, c: string): seq<Annotation>
  {
    if c in g.annotationsOf then g.annotationsOf[c] else []
  }

  /**
   * c, its superclass, that one's superclass, ... The set of names already passed
   * only makes the definition total; on a graph without cycles it never cuts the chain.
   */
  function Chain(sup: map<string, string>, seen: set<string>, c: string): (r: seq<string>)
    ensures |r| >= 1 && r[0] == c
    decreases sup.Keys - seen
  {
    if c in sup && c !in seen then [c] + Chain(sup, seen + {c}, sup[c]) else [c]
  }

  function Superclasses(g: ClassGraph, c: string): seq<string>
  {
    Chain(g.superclassOf, {}, c)
  }

  /** The superclass chain from c reaches a class whose getSuperclass() is null. */
  predicate ChainEnds(g: ClassGraph, c: string)
  {
    Last(Superclasses(g, c)) !in g.superclassOf
  }

  /** No class is its own ancestor, as the JVM guarantees. */
  predicate Acyclic(g: ClassGraph)
  {
    forall c :: c in g.superclassOf ==> ChainEnds(g, c)
  }

  /** The union of the interfaces declared by each class of a chain. */
  function InterfacesAlong(g: ClassGraph, chain: seq<string>): set<string>
  {
    if chain == [] then {} else InterfacesAlong(g, chain[..|chain| - 1]) + DeclaredInterfaces(g, Last(chain))
  }

  predicate IsProcessor(g: ClassGraph, c: string)
  {
    ProcessorInterface in InterfacesAlong(g, Superclasses(g, c))
  }

  // ---------------------------------------------------------------------------
  // Properties of the classification

  lemma AcyclicChainEnds(g: ClassGraph, c: string)
    requires Acyclic(g)
    ensures ChainEnds(g, c)
  {
  }

  lemma {:induction false} ChainFollowsSuperclasses(sup: map<string, string>, seen: set<string>, c: string)
    requires Last(Chain(sup, seen, c)) !in sup
    ensures var chain := Chain(sup, seen, c);
      forall k :: 0 <= k < |chain| - 1 ==> chain[k] in sup && chain[k + 1] == sup[chain[k]]
    decreases sup.Keys - seen
  {
    if c in sup && c !in seen {
      var rest := Chain(sup, seen + {c}, sup[c]);
      assert Last(rest) == Last(Chain(sup, seen, c));
      ChainFollowsSuperclasses(sup, seen + {c}, sup[c]);
    }
  }

  /** Superclasses(g, c) is exactly the getSuperclass() chain from c until it returns null. */
  lemma SuperclassesAreTheChain(g: ClassGraph, c: string)
    requires ChainEnds(g, c)
    ensures var chain := Superclasses(g, c);
      && chain[0] == c
      && (forall k :: 0 <= k < |chain| - 1 ==> chain[k] in g.superclassOf && chain[k + 1] == g.superclassOf[chain[k]])
      && Last(chain) !in g.superclassOf
  {
    ChainFollowsSuperclasses(g.superclassOf, {}, c);
  }

  lemma {:induction false} InterfacesAlongMembers(g: ClassGraph, chain: seq<string>, i: string)
    ensures i in InterfacesAlong(g, chain) <==> exists k :: 0 <= k < |chain| && i in DeclaredInterfaces(g, chain[k])
    decreases |chain|
  {
    if chain != [] {
      var init := chain[..|chain| - 1];
      InterfacesAlongMembers(g, init, i);
      if i in InterfacesAlong(g, chain) && i !in DeclaredInterfaces(g, Last(chain)) {
        var k :| 0 <= k < |init| && i in DeclaredInterfaces(g, init[k]);
        assert chain[k] == init[k];
      }
      if k :| 0 <= k < |chain| && i in DeclaredInterfaces(g, chain[k]) {
        if k < |chain| - 1 {
          assert init[k] == chain[k];
        }
      }
    }
  }

  /**
   * A class is a processor exactly when Processor is declared directly by the
   * class or by one of its superclasses; interfaces extended by those
   * interfaces are not looked at.
   */
  lemma ProcessorIffDeclaredAlongChain(g: ClassGraph, c: string)
    ensures IsProcessor(g, c) <==>
      exists k :: 0 <= k < |Superclasses(g, c)| && ProcessorInterface in DeclaredInterfaces(g, Superclasses(g, c)[k])
  {
    InterfacesAlongMembers(g, Superclasses(g, c), ProcessorInterface);
  }

  /** A class implementing an interface that itself extends Processor is not recognised. */
  lemma SuperinterfacesNotFollowed()
    ensures !IsProcessor(ClassGraph(map[], map["p.Sub" := ["p.MyProcessor"], "p.MyProcessor" := [ProcessorInterface]], map[]), "p.Sub")
  {
    var g := ClassGraph(map[], map["p.Sub" := ["p.MyProcessor"], "p.MyProcessor" := [ProcessorInterface]], map[]);
    assert Superclasses(g, "p.Sub") == ["p.Sub"];
    assert DeclaredInterfaces(g, "p.Sub") == {"p.MyProcessor"};
    assert InterfacesAlong(g, ["p.Sub"]) == InterfacesAlong(g, []) + DeclaredInterfaces(g, "p.Sub");
  }

  /** One step along a chain that ends: the current class has not been passed before, and the rest of the chain still ends. */
  lemma ChainStep(sup: map<string, string>, seen: set<string>, current: string, walked: seq<string>)
    requires Last(Chain(sup, seen, current)) !in sup
    requires current in sup
    ensures current !in seen
    ensures walked + Chain(sup, seen, current) == (walked + [current]) + Chain(sup, seen + {current}, sup[current])
    ensures |Chain(sup, seen + {current}, sup[current])| < |Chain(sup, seen, current)|
    ensures Last(Chain(sup, seen + {current}, sup[current])) !in sup
  {
    assert Chain(sup, seen, current) == [current] + Chain(sup, seen + {current}, sup[current]);
  }

  lemma InterfacesAlongSnoc(g: ClassGraph, walked: seq<string>, current: string)
    ensures InterfacesAlong(g, walked + [current]) == InterfacesAlong(g, walked) + DeclaredInterfaces(g, current)
  {
    assert (walked + [current])[..|walked|] == walked;
  }

  /** The do-while loop: add the declared interfaces of the current class, move to its superclass, stop at null. */
  method CollectInterfaces(g: ClassGraph, c: string) returns (interfaces: set<string>)
    requires ChainEnds(g, c)
    ensures interfaces == InterfacesAlong(g, Superclasses(g, c))
  {
    var sup := g.superclassOf;
    interfaces := {};
    var current := c;
    ghost var seen: set<string> := {};
    ghost var walked: seq<string> := [];
    while true
      invariant Superclasses(g, c) == walked + Chain(sup, seen, current)
      invariant interfaces == InterfacesAlong(g, walked)
      invariant Last(Chain(sup, seen, current)) !in sup
      decreases |Chain(sup, seen, current)|
    {
      InterfacesAlongSnoc(g, walked, current);
      interfaces := interfaces + DeclaredInterfaces(g, current);
      if current !in sup {
        assert Chain(sup, seen, current) == [current];
        walked := walked + [current];
        break;
      }
      ChainStep(sup, seen, current, walked);
      walked := walked + [current];
      seen := seen + {current};
      current := sup[current];
    }
  }

  // ---------------------------------------------------------------------------
  // Picking the declaration

  /** The first @ProcessorTest among a class's annotations, if any. */
  function FirstProcessorTest(anns: seq<Annotation>): (r: Option<ProcessorTestDecl>)
    ensures r.None? <==> forall k :: 0 <= k < |anns| ==> !anns[k].ProcessorTestAnnotation?
    ensures r.Some? ==> exists k :: 0 <= k < |anns| && anns[k] == ProcessorTestAnnotation(r.value)
                          && forall j :: 0 <= j < k ==> !anns[j].ProcessorTestAnnotation?
  {
    if anns == [] then None
    else if anns[0].ProcessorTestAnnotation? then Some(anns[0].decl)
    else
      var r := FirstProcessorTest(anns[1..]);
      assert forall k :: 0 < k < |anns| ==> anns[k] == anns[1..][k - 1];
      r
  }

  /** The for loop over getAnnotations() that stops at the first ProcessorTest. */
  method FindProcessorTest(anns: seq<Annotation>) returns (annotation: Option<ProcessorTestDecl>)
    ensures annotation == FirstProcessorTest(anns)
  {
    annotation := None;
    for k := 0 to |anns|
      invariant annotation.None?
      invariant forall j :: 0 <= j < k ==> !anns[j].ProcessorTestAnnotation?
    {
      if anns[k].ProcessorTestAnnotation? {
        annotation := Some(anns[k].decl);
        return;
      }
    }
  }

  // ---------------------------------------------------------------------------
  // The stub the processor runs on

  datatype Failure =
    | IllegalArgument(message: string)
    | UnsupportedOperation(message: string)
    | CompilerException(clazz: string)       // "Could not compile " + clazz
    | ClassNotLoaded(name: string)           // ClassNotFoundException from loadClass
    | ReadFailed(path: File)                 // IOException from Files.readAllLines
    | NotInstantiable(className: string)     // Class.newInstance threw
    | NullBytecode                           // a null class file handed to stripDebugInfo
    | BytecodeMismatch                       // assertArrayEquals failed

  const RootMessage := "sourceRoot must be a directory!"
  const AnnotationMessage := "annotation must be an annotation class"
  const MissingExpectedMessage := "Either one of `expected` or `expectedFile` must be set!"

  /** The class every stub and every expected source declares, and the key both compiles are read under. */
  const ExampleClass := "Example"

  /** What the StringBuilder is given for each supported target, one append per piece. */
  function StubPieces(n: string, target: ElementType): (r: seq<string>)
    requires target in SupportedTargets
    ensures |r| >= 3 && r[0] == "import " + n + ";\n"
    ensures '\n' !in Last(r)
  {
    match target
    case Type => ["import " + n + ";\n", "@" + n + "\n", "public class Example {}"]
    case Method => ["import " + n + ";\n", "public class Example {\n", "    @" + n + "\n", "    public void example() {}\n", "}"]
    case Constructor => ["import " + n + ";\n", "public class Example {\n", "    @" + n + "\n", "    public Example() {}\n", "}"]
    case Field => ["import " + n + ";\n", "public class Example {\n", "    @" + n + "\n", "    public int example;\n", "}"]
  }

  /** The minimal compilation unit applying annotation `n` to an Example target of the given kind. */
  function StubSource(n: string, target: ElementType): (r: Result<string, Failure>)
    ensures r.Ok? <==> target in SupportedTargets
    ensures r.Err? ==> r.error == UnsupportedOperation("Unsupported test target type " + target.Name())
    ensures r.Ok? ==> StartsWith(r.value, "import " + n + ";\n")
  {
    if target in SupportedTargets then
      var pieces := StubPieces(n, target);
      assert Concat(pieces)[..|pieces[0]|] == pieces[0];
      Ok(Concat(pieces))
    else Err(UnsupportedOperation("Unsupported test target type " + target.Name()))
  }

  /** The line holding the marked declaration, for each supported target. */
  function MarkedDeclaration(target: ElementType): string
  {
    match target
    case Type => "public class Example {}"
    case Method => "    public void example() {}"
    case Constructor => "    public Example() {}"
    case _ => "    public int example;"
  }

  /**
   * Read as lines, a stub is the import of the annotation, then (inside
   * `public class Example` for members) the annotation on its own line
   * immediately followed by the marked declaration.
   */
  lemma StubSourceLines(n: string, target: ElementType)
    requires target in SupportedTargets && '\n' !in n
    ensures var lines := Split(StubSource(n, target).value, '\n');
      if target == Type then lines == ["import " + n + ";", "@" + n, MarkedDeclaration(target)]
      else lines == ["import " + n + ";", "public class Example {", "    @" + n, MarkedDeclaration(target), "}"]
  {
    var pieces := StubPieces(n, target);
    var lines :=
      if target == Type then ["import " + n + ";", "@" + n, MarkedDeclaration(target)]
      else ["import " + n + ";", "public class Example {", "    @" + n, MarkedDeclaration(target), "}"];
    forall k | 0 <= k < |lines| - 1 ensures pieces[k] == lines[k] + ['\n'] {
    }
    forall k | 0 <= k < |lines| ensures '\n' !in lines[k] {
    }
    SplitConcatLines(pieces, lines, '\n');
  }

  // ---------------------------------------------------------------------------
  // The expected source

  datatype Expected = ExpectedSource(text: string) | NotSpecified | Unreadable(path: File)

  /** Path.resolve: a path starting at the root stands for itself, anything else is taken below `base`. */
  function Resolve(base: File, other: string, sep: char): (r: File)
    ensures EndsWith(r, other)
    ensures r == other || StartsWith(r, base + [sep])
    ensures StartsWith(other, [sep]) ==> r == other
    ensures !StartsWith(other, [sep]) ==> StartsWith(r, base + [sep]) && r[|base| + 1..] == other
  {
    if StartsWith(other, [sep]) then other
    else
      assert (base + [sep] + other)[|base| + 1..] == other;
      base + [sep] + other
  }

  /** expectedFile when set (its lines joined with "\n"), else the inline lines joined with "\n", else nothing. */
  function ResolveExpected(decl: ProcessorTestDecl, root: File, textFiles: map<File, seq<string>>, sep: char): (r: Expected)
    ensures r.NotSpecified? <==> decl.expectedFile == "" && decl.expected == []
    ensures r.Unreadable? <==> decl.expectedFile != "" && Resolve(root, decl.expectedFile, sep) !in textFiles
    ensures r.Unreadable? ==> r.path == Resolve(root, decl.expectedFile, sep)
  {
    if decl.expectedFile != "" then
      var path := Resolve(root, decl.expectedFile, sep);
      if path in textFiles then ExpectedSource(Join(textFiles[path], "\n")) else Unreadable(path)
    else if |decl.expected| > 0 then ExpectedSource(Join(decl.expected, "\n"))
    else NotSpecified
  }

  /** A non-empty expectedFile wins: the inline lines are then never looked at. */
  lemma ExpectedFileTakesPrecedence(decl: ProcessorTestDecl, lines: seq<string>, root: File, textFiles: map<File, seq<string>>, sep: char)
    requires decl.expectedFile != ""
    ensures ResolveExpected(decl, root, textFiles, sep) == ResolveExpected(decl.(expected := lines), root, textFiles, sep)
    ensures !ResolveExpected(decl, root, textFiles, sep).NotSpecified?
  {
  }

  /**
   * A readable expectedFile gives its lines joined with "\n": splitting the
   * expected source at newlines gives back the file's lines.
   */
  lemma ExpectedFileRoundTrip(decl: ProcessorTestDecl, root: File, textFiles: map<File, seq<string>>, sep: char)
    requires decl.expectedFile != "" && Resolve(root, decl.expectedFile, sep) in textFiles
    requires var lines := textFiles[Resolve(root, decl.expectedFile, sep)];
      |lines| > 0 && forall k :: 0 <= k < |lines| ==> '\n' !in lines[k]
    ensures var e := ResolveExpected(decl, root, textFiles, sep);
      e.ExpectedSource? && Split(e.text, '\n') == textFiles[Resolve(root, decl.expectedFile, sep)]
  {
    SplitJoin(textFiles[Resolve(root, decl.expectedFile, sep)], '\n');
  }

  /** Inline lines are joined without a trailing newline: splitting the expected source at newlines gives them back. */
  lemma InlineExpectedRoundTrip(decl: ProcessorTestDecl, root: File, textFiles: map<File, seq<string>>, sep: char)
    requires decl.expectedFile == "" && |decl.expected| > 0
    requires forall k :: 0 <= k < |decl.expected| ==> '\n' !in decl.expected[k]
    ensures var e := ResolveExpected(decl, root, textFiles, sep);
      e.ExpectedSource? && Split(e.text, '\n') == decl.expected
  {
    SplitJoin(decl.expected, '\n');
  }

  /** The StringJoiner loop: the first line as is, each further line after a "\n". */
  method JoinLines(lines: seq<string>) returns (s: string)
    ensures s == Join(lines, "\n")
  {
    var joiner: Option<string> := None;
    for i := 0 to |lines|
      invariant i == 0 ==> joiner.None?
      invariant i > 0 ==> joiner == Some(Join(lines[..i], "\n"))
    {
      if joiner.None? {
        assert Join(lines[..i + 1], "\n") == lines[i] by {
          assert lines[..i + 1] == [lines[i]];
        }
        joiner := Some(lines[i]);
      } else {
        assert Join(lines[..i + 1], "\n") == joiner.value + "\n" + lines[i] by {
          JoinAppend(lines[..i], lines[i], "\n");
          assert lines[..i + 1] == lines[..i] + [lines[i]];
        }
        joiner := Some(joiner.value + "\n" + lines[i]);
      }
    }
    assert lines[..|lines|] == lines;
    s := if joiner.None? then "" else joiner.value;
  }

  // ---------------------------------------------------------------------------
  // Discovery

  datatype EntryKind = RegularFile | Directory | Missing

  /** One path from Files.walk(sourceRoot), relative to the root. */
  datatype WalkEntry = WalkEntry(relativePath: string, kind: EntryKind)

  /** The File given as sourceRoot: its path and whether it exists and is a directory. */
  datatype RootDir = RootDir(path: File, present: bool, isDirectory: bool)

  /** Everything outside the harness that discovery reads. */
  datatype Workspace = Workspace(
    separator: char,                    // File.separatorChar
    walk: seq<WalkEntry>,               // Files.walk order
    textFiles: map<File, seq<string>>,  // Files.readAllLines, by path
    graph: ClassGraph,                  // reflection
    platform: string -> Option<Bytes>,  // the parent class loader
    tempDirs: nat -> File)              // the fresh output directory of the i-th fixture compile

  datatype TestBody =
    | AlwaysFails(failure: Failure)
    | CompareBytecode(processorClass: string, stubSource: string, expectedSource: string)

  /** A DynamicTest: its display name and what running it does. */
  datatype DynamicTest = DynamicTest(displayName: string, body: TestBody)

  /** What one walked file contributes to the stream. */
  datatype Step = Skip | Yield(test: DynamicTest) | Abort(failure: Failure)

  /** The tests pulled from the stream before it threw (if it did). */
  datatype Discovery = Discovery(tests: seq<DynamicTest>, aborted: Option<Failure>)

  predicate ValidRoot(root: Option<RootDir>)
  {
    root.Some? && root.value.present && root.value.isDirectory
  }

  /** Path.getFileName(): the last name element. */
  function FileName(path: string, sep: char): (r: string)
    ensures sep !in r && EndsWith(path, r)
    ensures |r| == |path| || path[|path| - |r| - 1] == sep
    decreases |path|
  {
    if path == [] || Last(path) == sep then ""
    else
      var init := path[..|path| - 1];
      var rest := FileName(init, sep);
      var r := rest + [Last(path)];
      assert path[|path| - |r|..] == init[|init| - |rest|..] + [Last(path)];
      assert |rest| < |init| ==> path[|path| - |r| - 1] == init[|init| - |rest| - 1];
      r
  }

  predicate IsJavaSource(e: WalkEntry, sep: char)
  {
    EndsWith(FileName(e.relativePath, sep), ".java") && e.kind == RegularFile
  }

  /** The walked paths that survive the two filters, in walk order. */
  function JavaSources(walk: seq<WalkEntry>, sep: char): (r: seq<string>)
    ensures |r| <= |walk|
    ensures forall p :: p in r <==> exists e :: e in walk && IsJavaSource(e, sep) && e.relativePath == p
  {
    if walk == [] then []
    else
      var rest := JavaSources(walk[1..], sep);
      assert forall e :: e in walk <==> e == walk[0] || e in walk[1..];
      (if IsJavaSource(walk[0], sep) then [walk[0].relativePath] else []) + rest
  }

  /**
   * p.toString().replace(".java", "").replace(File.separator, "."): the derived
   * class name never contains the separator, so the artifact-key round trip
   * applies to it.
   */
  function ClassNameOf(relativePath: string, sep: char): (r: string)
    ensures ValidSeparator(sep) ==> sep !in r
  {
    ReplaceAll(ReplaceAll(relativePath, ".java", ""), [sep], ".")
  }

  /**
   * For a walked file `stem + ".java"` whose stem has no other dot, the derived
   * name is the stem with separators as dots, and compiling that name reads
   * exactly the walked file.
   */
  lemma ClassNameLocatesSource(root: File, stem: string, sep: char)
    requires ValidSeparator(sep) && '.' !in stem
    ensures ClassNameOf(stem + ".java", sep) == ReplaceChar(stem, sep, '.')
    ensures SourceFile(root, ClassNameOf(stem + ".java", sep), sep) == root + [sep] + stem + ".java"
  {
    ReplaceAllSkipsPrefix(stem, ".java", ".java", "");
    assert ReplaceAll(".java", ".java", "") == "";
    assert stem + "" == stem;
    ReplaceSingleChar(stem, sep, '.');
    ReplaceCharRoundTrip(stem, sep, '.');
  }

  /** What the declaration stage does with a processor class `c`. */
  function DeclarationStep(c: string, root: File, ws: Workspace): (r: Step)
    ensures r.Yield? ==> r.test.displayName == c
    ensures r.Yield? <==> FirstProcessorTest(Annotations(ws.graph, c)).Some? && !r.Abort?
    ensures r.Abort? ==> r.failure.UnsupportedOperation? || r.failure.ReadFailed?
    ensures r.Yield? && r.test.body.CompareBytecode? ==>
      var decl := FirstProcessorTest(Annotations(ws.graph, c)).value;
      && r.test.body.processorClass == c
      && StubSource(decl.annotation.name, decl.target) == Ok(r.test.body.stubSource)
      && ResolveExpected(decl, root, ws.textFiles, ws.separator) == ExpectedSource(r.test.body.expectedSource)
  {
    var annotation := FirstProcessorTest(Annotations(ws.graph, c));
    if annotation.None? then Skip
    else
      var decl := annotation.value;
      if !decl.annotation.isAnnotation || decl.annotation.isArray then Abort(UnsupportedOperation(AnnotationMessage))
      else
        match StubSource(decl.annotation.name, decl.target)
        case Err(f) => Abort(f)
        case Ok(stub) =>
          match ResolveExpected(decl, root, ws.textFiles, ws.separator)
          case Unreadable(path) => Abort(ReadFailed(path))
          case NotSpecified => Yield(DynamicTest(c, AlwaysFails(IllegalArgument(MissingExpectedMessage))))
          case ExpectedSource(text) => Yield(DynamicTest(c, CompareBytecode(c, stub, text)))
  }

  /** What one walked class contributes, given what compiling it returned. */
  function ClassStep(className: string, compiled: Option<Artifacts>, root: File, ws: Workspace): (r: Step)
    ensures (r == Abort(CompilerException(className))) <==> compiled.None?
  {
    if compiled.None? then Abort(CompilerException(className))
    else
      var loaded := ClassLoading.Load(compiled.value, ws.platform, ClassLoading.Fresh, className).1;
      if loaded.Err? then Abort(ClassNotLoaded(className))
      else if !IsProcessor(ws.graph, loaded.value.name) then Skip
      else DeclarationStep(loaded.value.name, root, ws)
  }

  /**
   * How a walked class is classified: a failed compile aborts; a compiled class
   * is always found by its fresh loader; a class that is not a processor, or
   * carries no @ProcessorTest, is skipped rather than failed; a test is only ever named after a processor carrying @ProcessorTest,
   * and it always fails exactly when that declaration gives no expected source.
   */
  lemma ClassStepOutcomes(className: string, compiled: Option<Artifacts>, root: File, ws: Workspace)
    ensures var r := ClassStep(className, compiled, root, ws);
      && (r == Abort(CompilerException(className)) <==> compiled.None?)
      && (compiled.Some? && className in compiled.value ==> r != Abort(ClassNotLoaded(className)))
      && (compiled.Some? && className in compiled.value && !IsProcessor(ws.graph, className) ==> r == Skip)
      && (compiled.Some? && className in compiled.value && FirstProcessorTest(Annotations(ws.graph, className)).None? ==> r == Skip)
      && (r.Yield? ==>
            && r.test.displayName == className
            && IsProcessor(ws.graph, className)
            && FirstProcessorTest(Annotations(ws.graph, className)).Some?)
      && (r.Yield? && r.test.body.AlwaysFails? ==>
            && var decl := FirstProcessorTest(Annotations(ws.graph, className)).value;
            && decl.expected == [] && decl.expectedFile == ""
            && r.test.body.failure == IllegalArgument(MissingExpectedMessage))
  {
  }

  /** A declaration that names neither expected form still yields a test, which always fails. */
  lemma MissingExpectedStillYields(className: string, compiled: Artifacts, root: File, ws: Workspace)
    requires className in compiled && IsProcessor(ws.graph, className)
    requires var a := FirstProcessorTest(Annotations(ws.graph, className));
      && a.Some? && a.value.annotation.isAnnotation && !a.value.annotation.isArray
      && a.value.target in SupportedTargets && a.value.expected == [] && a.value.expectedFile == ""
    ensures ClassStep(className, Some(compiled), root, ws)
      == Yield(DynamicTest(className, AlwaysFails(IllegalArgument(MissingExpectedMessage))))
  {
  }

  /** A marker that is not an annotation type, or is an array type, aborts discovery. */
  lemma InvalidAnnotationAborts(className: string, compiled: Artifacts, root: File, ws: Workspace)
    requires className in compiled && IsProcessor(ws.graph, className)
    requires var a := FirstProcessorTest(Annotations(ws.graph, className));
      a.Some? && (!a.value.annotation.isAnnotation || a.value.annotation.isArray)
    ensures ClassStep(className, Some(compiled), root, ws) == Abort(UnsupportedOperation(AnnotationMessage))
  {
  }

  /** A valid marker on a target other than TYPE, METHOD, CONSTRUCTOR or FIELD aborts discovery, naming the target. */
  lemma UnsupportedTargetAborts(className: string, compiled: Artifacts, root: File, ws: Workspace)
    requires className in compiled && IsProcessor(ws.graph, className)
    requires var a := FirstProcessorTest(Annotations(ws.graph, className));
      && a.Some? && a.value.annotation.isAnnotation && !a.value.annotation.isArray
      && a.value.target !in SupportedTargets
    ensures var a := FirstProcessorTest(Annotations(ws.graph, className));
      ClassStep(className, Some(compiled), root, ws)
        == Abort(UnsupportedOperation("Unsupported test target type " + a.value.target.Name()))
  {
  }

  /** Lazily pulling the steps: every Yield in order, until the first Abort. */
  function Collect(steps: seq<Step>): (d: Discovery)
    ensures |d.tests| <= |steps|
    ensures d.aborted.Some? <==> exists i :: 0 <= i < |steps| && steps[i].Abort?
    ensures forall t :: t in d.tests ==> exists i :: 0 <= i < |steps| && steps[i] == Yield(t)
  {
    if steps == [] then Discovery([], None)
    else
      var rest := Collect(steps[1..]);
      assert forall i :: 0 < i < |steps| ==> steps[i] == steps[1..][i - 1];
      match steps[0]
      case Abort(f) => Discovery([], Some(f))
      case Skip => rest
      case Yield(t) => Discovery([t] + rest.tests, rest.aborted)
  }

  /** One more step after a run that has not aborted. */
  lemma {:induction false} CollectAppend(steps: seq<Step>, s: Step)
    requires Collect(steps).aborted.None?
    ensures Collect(steps + [s]) == match s
      case Skip => Collect(steps)
      case Yield(t) => Discovery(Collect(steps).tests + [t], None)
      case Abort(f) => Discovery(Collect(steps).tests, Some(f))
    decreases |steps|
  {
    if steps != [] {
      assert (steps + [s])[1..] == steps[1..] + [s];
      CollectAppend(steps[1..], s);
    }
  }

  /** A tree with no qualifying declaration yields no tests. */
  lemma {:induction false} NoDeclarationsNoTests(steps: seq<Step>)
    requires forall i :: 0 <= i < |steps| ==> !steps[i].Yield?
    ensures Collect(steps).tests == []
    decreases |steps|
  {
    if steps != [] {
      NoDeclarationsNoTests(steps[1..]);
    }
  }

  /** Both stream stages for one walked class: compile result in, step out. */
  method ProcessClass(className: string, compiled: Option<Artifacts>, root: File, ws: Workspace) returns (step: Step)
    requires Acyclic(ws.graph)
    ensures step == ClassStep(className, compiled, root, ws)
  {
    if compiled.None? {
      return Abort(CompilerException(className));
    }
    var classLoader := new ClassLoading.AnnotationProcessorClassLoader(compiled.value, ws.platform);
    var loaded := classLoader.LoadClass(className, false);
    if loaded.Err? {
      return Abort(ClassNotLoaded(className));
    }
    var c := loaded.value.name;
    AcyclicChainEnds(ws.graph, c);
    var interfaces := CollectInterfaces(ws.graph, c);
    if ProcessorInterface !in interfaces {
      return Skip;
    }
    var annotation := FindProcessorTest(Annotations(ws.graph, c));
    if annotation.None? {
      return Skip;
    }
    var decl := annotation.value;
    if !decl.annotation.isAnnotation || decl.annotation.isArray {
      return Abort(UnsupportedOperation(AnnotationMessage));
    }
    var stub := StubSource(decl.annotation.name, decl.target);
    if stub.Err? {
      return Abort(stub.error);
    }
    var expectedSource: string;
    if decl.expectedFile != "" {
      var path := Resolve(root, decl.expectedFile, ws.separator);
      if path !in ws.textFiles {
        return Abort(ReadFailed(path));
      }
      expectedSource := Join(ws.textFiles[path], "\n");
    } else if |decl.expected| > 0 {
      expectedSource := JoinLines(decl.expected);
    } else {
      return Yield(DynamicTest(c, AlwaysFails(IllegalArgument(MissingExpectedMessage))));
    }
    step := Yield(DynamicTest(c, CompareBytecode(c, stub.value, expectedSource)));
  }

  /** One walked file: derive its class name, compile it from the source root, and run both stages on the result. */
  method DiscoverFile(compileTestUtils: CompileTestUtils, relativePath: string, outputPath: File, root: File, ws: Workspace)
    returns (byteCode: Option<Artifacts>, step: Step, ghost request: JavacRequest)
    requires ValidSeparator(compileTestUtils.separator) && compileTestUtils.separator == ws.separator
    requires Acyclic(ws.graph)
    ensures compileTestUtils.RequestFor(request, ClassNameOf(relativePath, ws.separator), None, None, outputPath)
    ensures compileTestUtils.AnswersRequest(byteCode, request, ClassNameOf(relativePath, ws.separator))
    ensures byteCode.Some? ==> ClassNameOf(relativePath, ws.separator) in byteCode.value
    ensures step == ClassStep(ClassNameOf(relativePath, ws.separator), byteCode, root, ws)
  {
    var className := ClassNameOf(relativePath, ws.separator);
    byteCode, request := compileTestUtils.Compile(className, outputPath);
    step := ProcessClass(className, byteCode, root, ws);
  }

  /**
   * The first |steps| walked files were each compiled, the class name derived
   * from the file found in every successful compile, and each classified by ClassStep.
   */
  ghost predicate Walked(sources: seq<string>, compiled: seq<Option<Artifacts>>, steps: seq<Step>, root: File, ws: Workspace)
  {
    && |steps| == |compiled| <= |sources|
    && (forall k :: 0 <= k < |steps| ==> steps[k] == ClassStep(ClassNameOf(sources[k], ws.separator), compiled[k], root, ws))
    && (forall k :: 0 <= k < |compiled| && compiled[k].Some? ==> ClassNameOf(sources[k], ws.separator) in compiled[k].value)
  }

  lemma WalkedOneMore(sources: seq<string>, compiled: seq<Option<Artifacts>>, steps: seq<Step>, root: File, ws: Workspace,
                      byteCode: Option<Artifacts>, step: Step)
    requires Walked(sources, compiled, steps, root, ws) && |steps| < |sources|
    requires byteCode.Some? ==> ClassNameOf(sources[|steps|], ws.separator) in byteCode.value
    requires step == ClassStep(ClassNameOf(sources[|steps|], ws.separator), byteCode, root, ws)
    ensures Walked(sources, compiled + [byteCode], steps + [step], root, ws)
  {
    var compiled', steps' := compiled + [byteCode], steps + [step];
    forall k | 0 <= k < |steps'|
      ensures steps'[k] == ClassStep(ClassNameOf(sources[k], ws.separator), compiled'[k], root, ws)
      ensures compiled'[k].Some? ==> ClassNameOf(sources[k], ws.separator) in compiled'[k].value
    {
      if k < |steps| {
        assert steps'[k] == steps[k] && compiled'[k] == compiled[k];
      }
    }
  }

  /**
   * The first |compiled| walked files were each compiled by `compiler` from the
   * source root, without a processor, into their own output directory, and
   * each result is what the compiler's outcome gives.
   */
  ghost predicate CompiledAsRequested(sources: seq<string>, compiled: seq<Option<Artifacts>>, requests: seq<JavacRequest>,
                                      classpath: set<File>, root: File, javaVersion: string,
                                      compiler: JavacRequest -> JavacOutcome, ws: Workspace)
  {
    && |requests| == |compiled| <= |sources|
    && forall k :: 0 <= k < |compiled| ==>
         && IsRequest(requests[k], classpath, root, javaVersion, ws.separator, ClassNameOf(sources[k], ws.separator),
                      None, None, ws.tempDirs(k))
         && Answers(compiler, ws.separator, compiled[k], requests[k], ClassNameOf(sources[k], ws.separator))
  }

  lemma CompiledOneMore(sources: seq<string>, compiled: seq<Option<Artifacts>>, requests: seq<JavacRequest>,
                        classpath: set<File>, root: File, javaVersion: string,
                        compiler: JavacRequest -> JavacOutcome, ws: Workspace,
                        byteCode: Option<Artifacts>, request: JavacRequest)
    requires CompiledAsRequested(sources, compiled, requests, classpath, root, javaVersion, compiler, ws)
    requires |compiled| < |sources|
    requires IsRequest(request, classpath, root, javaVersion, ws.separator, ClassNameOf(sources[|compiled|], ws.separator),
                       None, None, ws.tempDirs(|compiled|))
    requires Answers(compiler, ws.separator, byteCode, request, ClassNameOf(sources[|compiled|], ws.separator))
    ensures CompiledAsRequested(sources, compiled + [byteCode], requests + [request], classpath, root, javaVersion, compiler, ws)
  {
    var compiled', requests' := compiled + [byteCode], requests + [request];
    forall k | 0 <= k < |compiled'|
      ensures IsRequest(requests'[k], classpath, root, javaVersion, ws.separator, ClassNameOf(sources[k], ws.separator),
                        None, None, ws.tempDirs(k))
      ensures Answers(compiler, ws.separator, compiled'[k], requests'[k], ClassNameOf(sources[k], ws.separator))
    {
      if k < |compiled| {
        assert requests'[k] == requests[k] && compiled'[k] == compiled[k];
      }
    }
  }

  /**
   * Discovery stops with a CompilerException for a walked class exactly when
   * the compiler did not succeed on that class's request.
   */
  lemma CompilerExceptionIffCompileFailed(sources: seq<string>, compiled: seq<Option<Artifacts>>, requests: seq<JavacRequest>,
                                          steps: seq<Step>, classpath: set<File>, root: File, javaVersion: string,
                                          compiler: JavacRequest -> JavacOutcome, ws: Workspace)
    requires Walked(sources, compiled, steps, root, ws)
    requires CompiledAsRequested(sources, compiled, requests, classpath, root, javaVersion, compiler, ws)
    ensures forall k :: 0 <= k < |steps| ==>
      ((steps[k] == Abort(CompilerException(ClassNameOf(sources[k], ws.separator))))
       <==> !Succeeded(compiler(requests[k]), ClassNameOf(sources[k], ws.separator), ws.separator))
  {
    forall k | 0 <= k < |steps|
      ensures (steps[k] == Abort(CompilerException(ClassNameOf(sources[k], ws.separator))))
          <==> !Succeeded(compiler(requests[k]), ClassNameOf(sources[k], ws.separator), ws.separator)
    {
      ClassStepOutcomes(ClassNameOf(sources[k], ws.separator), compiled[k], root, ws);
    }
  }

  /** Every test a discovery run produces is named after a walked class that compiled and is a processor. */
  lemma DiscoveredTestsNameProcessors(sources: seq<string>, compiled: seq<Option<Artifacts>>, steps: seq<Step>,
                                      root: File, ws: Workspace, t: DynamicTest)
    requires Walked(sources, compiled, steps, root, ws)
    requires t in Collect(steps).tests
    ensures exists i :: 0 <= i < |steps| && compiled[i].Some?
              && t.displayName == ClassNameOf(sources[i], ws.separator) && IsProcessor(ws.graph, t.displayName)
  {
    var i :| 0 <= i < |steps| && steps[i] == Yield(t);
    ClassStepOutcomes(ClassNameOf(sources[i], ws.separator), compiled[i], root, ws);
  }

  lemma TestsNameProcessors(sources: seq<string>, compiled: seq<Option<Artifacts>>, steps: seq<Step>, root: File, ws: Workspace)
    requires Walked(sources, compiled, steps, root, ws)
    ensures forall t :: t in Collect(steps).tests ==>
      && IsProcessor(ws.graph, t.displayName)
      && exists i :: 0 <= i < |sources| && t.displayName == ClassNameOf(sources[i], ws.separator)
  {
    forall t | t in Collect(steps).tests
      ensures IsProcessor(ws.graph, t.displayName)
      ensures exists i :: 0 <= i < |sources| && t.displayName == ClassNameOf(sources[i], ws.separator)
    {
      DiscoveredTestsNameProcessors(sources, compiled, steps, root, ws, t);
    }
  }

  /** Discovery never stops because a class it just compiled cannot be loaded. */
  lemma CompiledClassesAlwaysLoad(sources: seq<string>, compiled: seq<Option<Artifacts>>, steps: seq<Step>,
                                  root: File, ws: Workspace)
    requires Walked(sources, compiled, steps, root, ws)
    ensures forall i :: 0 <= i < |steps| ==> steps[i] != Abort(ClassNotLoaded(ClassNameOf(sources[i], ws.separator)))
  {
    forall i | 0 <= i < |steps|
      ensures steps[i] != Abort(ClassNotLoaded(ClassNameOf(sources[i], ws.separator)))
    {
      ClassStepOutcomes(ClassNameOf(sources[i], ws.separator), compiled[i], root, ws);
    }
  }

  /**
   * runProcessorTestsIn(sourceRoot, classpath): the root check, then one step
   * per walked .java file, pulled lazily until the first failure.
   */
  method RunProcessorTestsIn(root: Option<RootDir>, classpath: Option<seq<File>>, ws: Workspace,
                             compiler: JavacRequest -> JavacOutcome, javaVersion: string,
                             libraryJar: File, compilerJar: File)
    returns (d: Discovery, ghost compiled: seq<Option<Artifacts>>, ghost requests: seq<JavacRequest>, ghost steps: seq<Step>)
    requires ValidSeparator(ws.separator) && Acyclic(ws.graph)
    ensures !ValidRoot(root) ==> d == Discovery([], Some(IllegalArgument(RootMessage))) && compiled == []
    ensures ValidRoot(root) ==>
      var sources := JavaSources(ws.walk, ws.separator);
      && Walked(sources, compiled, steps, root.value.path, ws)
      && CompiledAsRequested(sources, compiled, requests, ClasspathEntries(classpath, javaVersion, libraryJar, compilerJar),
                             root.value.path, javaVersion, compiler, ws)
      && d == Collect(steps)
      && (|steps| < |sources| ==> d.aborted.Some?)
      && (d.aborted.Some? ==> |steps| > 0 && Last(steps).Abort?)
      && (forall k :: 0 <= k < |steps| - 1 ==> !steps[k].Abort?)
    ensures ValidRoot(root) ==> forall t :: t in d.tests ==>
      && IsProcessor(ws.graph, t.displayName)
      && exists i :: 0 <= i < |JavaSources(ws.walk, ws.separator)| && t.displayName == ClassNameOf(JavaSources(ws.walk, ws.separator)[i], ws.separator)
  {
    if !ValidRoot(root) {
      d, compiled, requests, steps := Discovery([], Some(IllegalArgument(RootMessage))), [], [], [];
      return;
    }
    var sep := ws.separator;
    var compileTestUtils := new CompileTestUtils(root.value.path, classpath, compiler, javaVersion, sep, libraryJar, compilerJar);
    var sources := JavaSources(ws.walk, sep);
    ghost var entries := ClasspathEntries(classpath, javaVersion, libraryJar, compilerJar);
    var tests: seq<DynamicTest> := [];
    compiled, requests, steps := [], [], [];
    var i := 0;
    while i < |sources|
      invariant |steps| == i <= |sources|
      invariant compileTestUtils.classpath == entries
      invariant Walked(sources, compiled, steps, root.value.path, ws)
      invariant CompiledAsRequested(sources, compiled, requests, entries, root.value.path, javaVersion, compiler, ws)
      invariant Collect(steps) == Discovery(tests, None)
      invariant forall k :: 0 <= k < |steps| ==> !steps[k].Abort?
    {
      var byteCode, step, request := DiscoverFile(compileTestUtils, sources[i], ws.tempDirs(i), root.value.path, ws);
      WalkedOneMore(sources, compiled, steps, root.value.path, ws, byteCode, step);
      CompiledOneMore(sources, compiled, requests, entries, root.value.path, javaVersion, compiler, ws, byteCode, request);
      CollectAppend(steps, step);
      compiled, requests, steps := compiled + [byteCode], requests + [request], steps + [step];
      if step.Abort? {
        d := Discovery(tests, Some(step.failure));
        TestsNameProcessors(sources, compiled, steps, root.value.path, ws);
        return;
      }
      if step.Yield? {
        tests := tests + [step.test];
      }
      i := i + 1;
    }
    d := Discovery(tests, None);
    TestsNameProcessors(sources, compiled, steps, root.value.path, ws);
  }

  // ---------------------------------------------------------------------------
  // Running one test

  datatype Verdict = Passed | Failed(failure: Failure)

  /**
   * A test's outcome given the processor instance and the two compile results:
   * both are read under "Example", stripped and compared.
   */
  function TestVerdict(body: TestBody, instance: Option<Processor>, generated: Option<Artifacts>,
                       expected: Option<Artifacts>, strip: Bytes -> Bytes): (r: Verdict)
    ensures r.Passed? <==>
      && body.CompareBytecode? && instance.Some? && generated.Some? && expected.Some?
      && ExampleClass in generated.value && ExampleClass in expected.value
      && strip(generated.value[ExampleClass]) == strip(expected.value[ExampleClass])
    ensures body.AlwaysFails? ==> r == Failed(body.failure)
  {
    match body
    case AlwaysFails(f) => Failed(f)
    case CompareBytecode(p, _, _) =>
      if instance.None? then Failed(NotInstantiable(p))
      else if generated.None? then Failed(CompilerException("Example (with annotation processor)"))
      else if expected.None? then Failed(CompilerException("Example (no annotation processor)"))
      else if ExampleClass !in generated.value || ExampleClass !in expected.value then Failed(NullBytecode)
      else if strip(generated.value[ExampleClass]) == strip(expected.value[ExampleClass]) then Passed
      else Failed(BytecodeMismatch)
  }

  /**
   * The body of a test: instantiate the processor, compile the stub with it
   * and the expected source without one, each in its own output directory,
   * and compare the stripped "Example" class files.
   */
  method RunTest(compileTestUtils: CompileTestUtils, test: DynamicTest, instantiate: string -> Option<Processor>,
                 strip: Bytes -> Bytes, generatedDir: File, expectedDir: File)
    returns (verdict: Verdict, ghost generated: Option<Artifacts>, ghost expected: Option<Artifacts>,
             ghost generatedRequest: JavacRequest, ghost expectedRequest: JavacRequest)
    requires ValidSeparator(compileTestUtils.separator)
    ensures test.body.AlwaysFails? ==> verdict == Failed(test.body.failure)
    ensures test.body.CompareBytecode? ==>
      var instance := instantiate(test.body.processorClass);
      && verdict == TestVerdict(test.body, instance, generated, expected, strip)
      && (instance.Some? ==>
            && compileTestUtils.RequestFor(generatedRequest, ExampleClass, Some(test.body.stubSource), instance, generatedDir)
            && compileTestUtils.AnswersRequest(generated, generatedRequest, ExampleClass))
      && (instance.Some? && generated.Some? ==>
            && compileTestUtils.RequestFor(expectedRequest, ExampleClass, Some(test.body.expectedSource), None, expectedDir)
            && compileTestUtils.AnswersRequest(expected, expectedRequest, ExampleClass))
    ensures test.body.CompareBytecode? ==> verdict != Failed(NullBytecode)
  {
    generated, expected := None, None;
    generatedRequest, expectedRequest := JavacRequest([], "", [], None, None, "", None), JavacRequest([], "", [], None, None, "", None);
    match test.body
    case AlwaysFails(f) =>
      verdict := Failed(f);
    case CompareBytecode(p, stubSource, expectedSource) =>
      var instance := instantiate(p);
      if instance.None? {
        verdict := Failed(NotInstantiable(p));
        return;
      }
      assert compileTestUtils.separator !in ExampleClass;
      var generatedBytecode;
      generatedBytecode, generatedRequest := compileTestUtils.CompileWithAnnotationProcessor(ExampleClass, Some(stubSource), instance, generatedDir);
      generated := generatedBytecode;
      if generatedBytecode.None? {
        verdict := Failed(CompilerException("Example (with annotation processor)"));
        return;
      }
      var expectedBytecode;
      expectedBytecode, expectedRequest := compileTestUtils.CompileWithAnnotationProcessor(ExampleClass, Some(expectedSource), None, expectedDir);
      expected := expectedBytecode;
      if expectedBytecode.None? {
        verdict := Failed(CompilerException("Example (no annotation processor)"));
        return;
      }
      if strip(generatedBytecode.value[ExampleClass]) == strip(expectedBytecode.value[ExampleClass]) {
        verdict := Passed;
      } else {
        verdict := Failed(BytecodeMismatch);
      }
  }
}

=== FILE: text.dfy ===
/**
 * The handful of java.lang.String operations the harness uses to turn paths
 * into class names and back, and to glue source lines together.
 */
module Text {

  predicate StartsWith(s: string, prefix: string)
  {
    |prefix| <= |s| && s[..|prefix|] == prefix
  }

  predicate EndsWith(s: string, suffix: string)
  {
    |suffix| <= |s| && s[|s| - |suffix|..] == suffix
  }

  /**
   * String.replace(CharSequence, CharSequence): every occurrence of `target`,
   * found scanning left to right without overlap, becomes `replacement`.
   * The harness only ever passes a non-empty literal as `target`.
   */
  function ReplaceAll(s: string, target: string, replacement: string): (r: string)
    requires target != []
    ensures replacement == target ==> r == s
    ensures forall c :: c in r ==> c in s || c in replacement
    ensures |target| == 1 && target[0] !in replacement ==> target[0] !in r
    decreases |s|
  {
    if |s| < |target| then s
    else if s[..|target|] == target then
      var rest := ReplaceAll(s[|target|..], target, replacement);
      assert forall c :: c in s[|target|..] ==> c in s;
      replacement + rest
    else
      var rest := ReplaceAll(s[1..], target, replacement);
      assert forall c :: c in s[1..] ==> c in s;
      assert |target| == 1 ==> s[0] != target[0] by {
        if |target| == 1 { assert s[..1] == [s[0]]; }
      }
      [s[0]] + rest
  }

  /** String.replace(char, char): every occurrence of one character becomes another. */
  function ReplaceChar(s: string, oldChar: char, newChar: char): (r: string)
    ensures |r| == |s|
    ensures forall i :: 0 <= i < |s| ==> r[i] == (if s[i] == oldChar then newChar else s[i])
  {
    if s == [] then []
    else [if s[0] == oldChar then newChar else s[0]] + ReplaceChar(s[1..], oldChar, newChar)
  }

  /** String.join(delimiter, parts), and what a StringJoiner accumulates: no leading or trailing delimiter. */
  function Join(parts: seq<string>, delimiter: string): (r: string)
    ensures |parts| > 0 ==> StartsWith(r, parts[0]) && EndsWith(r, parts[|parts| - 1])
    ensures parts == [] ==> r == ""
  {
    if |parts| == 0 then ""
    else if |parts| == 1 then parts[0]
    else
      var rest := Join(parts[1..], delimiter);
      assert (parts[0] + delimiter + rest)[..|parts[0]|] == parts[0];
      assert parts[1..][|parts| - 2] == parts[|parts| - 1];
      assert (parts[0] + delimiter + rest)[|parts[0] + delimiter + rest| - |rest|..] == rest;
      parts[0] + delimiter + rest
  }

  /** What a StringBuilder holds after appending each piece in turn. */
  function Concat(pieces: seq<string>): (r: string)
    ensures pieces != [] ==> StartsWith(r, pieces[0]) && EndsWith(r, pieces[|pieces| - 1])
    ensures pieces == [] ==> r == ""
  {
    if pieces == [] then ""
    else
      var rest := Concat(pieces[1..]);
      assert (pieces[0] + rest)[..|pieces[0]|] == pieces[0];
      assert |pieces| > 1 ==> pieces[1..][|pieces| - 2] == pieces[|pieces| - 1];
      assert (pieces[0] + rest)[|pieces[0] + rest| - |rest|..] == rest;
      pieces[0] + rest
  }

  /** The pieces of `s` between occurrences of `c` (there is always at least one). */
  function Split(s: string, c: char): (r: seq<string>)
    ensures |r| >= 1
    decreases |s|
  {
    if s == [] then [""]
    else
      var rest := Split(s[1..], c);
      if s[0] == c then [""] + rest else [[s[0]] + rest[0]] + rest[1..]
  }

  // ---------------------------------------------------------------------------
  // Replacement

  /** A prefix that cannot start an occurrence of `target` passes through unchanged. */
  lemma {:induction false} ReplaceAllSkipsPrefix(s: string, u: string, target: string, replacement: string)
    requires target != [] && target[0] !in s
    ensures ReplaceAll(s + u, target, replacement) == s + ReplaceAll(u, target, replacement)
    decreases |s|
  {
    if s != [] {
      var w := s + u;
      assert w[0] == s[0] != target[0];
      if |w| >= |target| {
        assert w[..|target|] != target by { assert w[..|target|][0] == w[0]; }
        assert w[1..] == s[1..] + u;
        ReplaceAllSkipsPrefix(s[1..], u, target, replacement);
      } else {
        assert |u| < |target|;
      }
    } else {
      assert s + u == u;
    }
  }

  /** With a one-character target and replacement, the two String.replace overloads agree. */
  lemma {:induction false} ReplaceSingleChar(s: string, a: char, b: char)
    ensures ReplaceAll(s, [a], [b]) == ReplaceChar(s, a, b)
    decreases |s|
  {
    if s != [] {
      ReplaceSingleChar(s[1..], a, b);
      if s[0] == a {
        assert s[..1] == [a];
      } else {
        assert s[..1] != [a] by { assert s[..1][0] == s[0]; }
      }
    }
  }

  /** Replacing `a` by `b` and back is the identity when `b` did not occur in the first place. */
  lemma ReplaceCharRoundTrip(s: string, a: char, b: char)
    requires b !in s
    ensures ReplaceChar(ReplaceChar(s, a, b), b, a) == s
  {
    var r := ReplaceChar(ReplaceChar(s, a, b), b, a);
    forall i | 0 <= i < |s| ensures r[i] == s[i] {
      assert s[i] != b;
    }
  }

  /** After replacing `a` by a different character, no `a` is left. */
  lemma ReplaceCharRemoves(s: string, a: char, b: char)
    requires a != b
    ensures a !in ReplaceChar(s, a, b)
  {
    var r := ReplaceChar(s, a, b);
    forall i | 0 <= i < |r| ensures r[i] != a {}
  }

  // ---------------------------------------------------------------------------
  // Joining and splitting

  /** Adding one more part to a non-empty join appends the delimiter and the part: how StringJoiner.add grows. */
  lemma {:induction false} JoinAppend(parts: seq<string>, x: string, delimiter: string)
    requires |parts| > 0
    ensures Join(parts + [x], delimiter) == Join(parts, delimiter) + delimiter + x
    decreases |parts|
  {
    if |parts| == 1 {
      assert parts + [x] == [parts[0], x];
      assert [parts[0], x][1..] == [x];
    } else {
      assert (parts + [x])[1..] == parts[1..] + [x];
      JoinAppend(parts[1..], x, delimiter);
    }
  }

  lemma {:induction false} SplitWithoutDelimiter(a: string, c: char)
    requires c !in a
    ensures Split(a, c) == [a]
    decreases |a|
  {
    if a != [] {
      SplitWithoutDelimiter(a[1..], c);
      assert [a[0]] + a[1..] == a;
    }
  }

  lemma {:induction false} SplitAtFirstDelimiter(a: string, b: string, c: char)
    requires c !in a
    ensures Split(a + [c] + b, c) == [a] + Split(b, c)
    decreases |a|
  {
    var s := a + [c] + b;
    if a == [] {
      assert s[1..] == b;
    } else {
      assert s[1..] == a[1..] + [c] + b;
      SplitAtFirstDelimiter(a[1..], b, c);
      assert [a[0]] + a[1..] == a;
    }
  }

  /** Splitting a join on its one-character delimiter gives the parts back, when no part contains the delimiter. */
  lemma {:induction false} SplitJoin(parts: seq<string>, c: char)
    requires |parts| > 0
    requires forall k :: 0 <= k < |parts| ==> c !in parts[k]
    ensures Split(Join(parts, [c]), c) == parts
    decreases |parts|
  {
    if |parts| == 1 {
      SplitWithoutDelimiter(parts[0], c);
    } else {
      SplitAtFirstDelimiter(parts[0], Join(parts[1..], [c]), c);
      SplitJoin(parts[1..], c);
      assert [parts[0]] + parts[1..] == parts;
    }
  }

  /**
   * Text appended as lines, each but the last closed by `c`, splits back into
   * those lines when none of them contains `c`.
   */
  lemma {:induction false} SplitConcatLines(pieces: seq<string>, lines: seq<string>, c: char)
    requires |pieces| == |lines| > 0
    requires forall k :: 0 <= k < |lines| ==> c !in lines[k]
    requires forall k :: 0 <= k < |lines| - 1 ==> pieces[k] == lines[k] + [c]
    requires pieces[|pieces| - 1] == lines[|lines| - 1]
    ensures Split(Concat(pieces), c) == lines
    decreases |lines|
  {
    if |lines| == 1 {
      assert Concat(pieces) == pieces[0] + "";
      assert pieces[0] + "" == lines[0];
      SplitWithoutDelimiter(lines[0], c);
    } else {
      SplitConcatLines(pieces[1..], lines[1..], c);
      SplitAtFirstDelimiter(lines[0], Concat(pieces[1..]), c);
      assert [lines[0]] + lines[1..] == lines;
    }
  }
}
